=== FILE: README.md ===
# health-dash-fe, modelled in Dafny

A model of the logic inside the health-dash React front end. Rendering is
not modelled. The model covers:

- **Request gateway** (`ApiGateway`):
  - the closed route registry;
  - the query-string builder;
  - the `APIService.request` pipeline: token gate, URL, headers in which
    the caller's entries win, one observer call on success;
  - the three-way error normalisation.
- **Achievement table** (`AchievementTable`): the nine entries and their
  `check` predicates (one-time, streak, quantity).
- **User session** (`UserSession`): the provider's initial record, the
  `updateUser` shallow merge and the `checkUser` replace-on-success.
- **Route guard** (`RouteGuard`): redirect to onboarding exactly on the
  error "404", let every other outcome through, always clear `loading`.
- **Achievement notifications** (`AchievementContext`,
  `AchievementChecks`):
  - the current-achievement cell with show and hide;
  - the `useAchievement` guard;
  - the response observer that shows each achievement in order.
- **Push worker** (`PushWorker`): a push payload mapped to exactly one
  notification, with defaults and an error fallback.
- **Onboarding form** (`Onboarding`): the one-field update of
  `handleChange` and the UPDATE_USER body.
- **Profile form**:
  - `ProfileValidation`: base64url normalisation and decoding, and the
    phone, height and email formats;
  - `ProfilePage`: the form state, the three validators and `handleSave`.

How the source becomes Dafny:

- Stateful pieces are classes with `modifies` clauses: the API service,
  the user provider, the route guard, the achievement provider, the
  onboarding and profile pages. Each state change is stated against a pure
  function, and the properties are lemmas about those functions.
- JavaScript values of type `any` are a small `Json` datatype, except the
  `data` of the GET_USER response, which is taken to be a user record. `null` and
  `undefined` both map to `JNull`. Truthiness, `||` defaults and optional
  chaining are written out.
- The regular expressions are written out:
  - the phone and height patterns as atoms run by a matcher that tries
    every way of taking or skipping an optional atom, as the regex engine
    backtracks;
  - the email pattern as an explicit split predicate.
- `encodeURIComponent`, `window.atob`, the token source (`fetchAuthSession`)
  and the HTTP client (axios) are parameters of the operations that use
  them. They are `encode`, `atob`, a `Session` value and a `transport`
  function.

Three behaviours of the code are modelled as written:

- `handleSave` reads the form values captured when the handler was made.
  The body therefore carries the phone as typed, even when `validatePhone`
  has just stored its formatted form. After a save the `[user]` effect
  loads the record again, so the formatted phone leaves the form as well
  (`ReloadAfterSave`).
- A '+' counts toward the ten characters that trigger phone formatting.
  "+123456789" is stored as "+1 (+12) 345-6789", and the phone pattern
  rejects that value (`PlusCountsTowardTen`, `FormattedPlusRejected`).
- A failed profile fetch in the user provider leaves the record unchanged:
  the catch block of `checkUser` in src/GlobalContext.tsx only logs, and no
  marker record for a missing profile is stored.

The pages import `apiRequest` from src/utils/APIService.tsx, but that file
exports no `apiRequest`: it defines `API_METHODS`, `API_ROUTES`, `buildUrl`, the
`APIService` class and its `apiService` instance. The model
runs the route guard's call through `ApiService.Request`. The other pages
are modelled by what they pass to the request (route and body) or by what it
yielded (a `Result`).

## Model

| member | source | states |
|---|---|---|
| ApiGateway.EndpointOf | src/utils/APIService.tsx:16-38 | every registered path is absolute and has no query part |
| ApiGateway.NameOf | src/utils/APIService.tsx:16-38 | the registry key of each route; definition only, its properties are stated by `NamesDistinct` |
| ApiGateway.NamesDistinct | src/utils/APIService.tsx:16-38 | no two routes share a registry key, so each key names exactly one route and hence one (path, method) pair |
| ApiGateway.EndpointsDistinct | src/utils/APIService.tsx:8-38 | no two route names share a (path, method) pair |
| ApiGateway.EntryPairsShape | src/utils/APIService.tsx:52-59 | a scalar parameter gives exactly one `encode(key)=encode(value)` pair; a non-empty array gives one `encode(key)=encode(item)` pair per element, in element order |
| ApiGateway.FlatPairs | src/utils/APIService.tsx:51-61 | every entry contributes at least one segment |
| ApiGateway.SplitJoin | src/utils/APIService.tsx:58-61 | splitting a '&'-join of parts that hold no '&' gives the parts back |
| ApiGateway.QueryStringIsFlatJoin | src/utils/APIService.tsx:51-61 | the query string is the '&'-join of all pairs, in entry order and then element order; arrays are never comma-joined |
| ApiGateway.QueryString | src/utils/APIService.tsx:51-61 | the nested map-and-join of `buildUrl`; definition only, its properties are stated by `QueryStringIsFlatJoin` and `QuerySegmentsParse` |
| ApiGateway.FlatPairsNoSeparator | src/utils/APIService.tsx:52-59 | when the encoder never emits '&', no pair contains '&' |
| ApiGateway.QuerySegmentsParse | src/utils/APIService.tsx:51-63 | for non-empty parameters and an encoder that never emits '&', splitting the query string at '&' recovers exactly the pairs in order |
| ApiGateway.UrlShape | src/utils/APIService.tsx:48-64 | no parameters gives exactly base URL + path; an empty parameter object gives base URL + path + "?" |
| ApiGateway.BuildUrl | src/utils/APIService.tsx:48-64 | the URL starts with the base URL and the path; a query part, opened by "?", follows exactly when parameters are given (its contents: `QueryStringIsFlatJoin`, `QuerySegmentsParse`) |
| ApiGateway.DecimalString | src/utils/APIService.tsx:124 | a status becomes a non-empty string of decimal digits |
| ApiGateway.ParseDecimalString | src/utils/APIService.tsx:124 | the decimal message reads back as the status |
| ApiGateway.ErrorKinds | src/utils/APIService.tsx:123-129 | a response failure gives an all-digit message; the other two kinds give messages starting "API Error: ": exactly "API Error: No response received from server" when no response came, and "API Error: " followed by the error's own message otherwise; the message is all digits exactly for a response failure |
| ApiGateway.NotFoundMessage | src/utils/APIService.tsx:123-129 | the normalised message is "404" exactly for a response with status 404 |
| ApiGateway.NormaliseError | src/utils/APIService.tsx:116-129 | the catch block's rethrown message; definition only, its properties are stated by `ErrorKinds` and `NotFoundMessage` |
| ApiGateway.HeadersFor | src/utils/APIService.tsx:95-99 | the headers hold the two default keys and the caller's keys; caller entries win; defaults are "application/json" and "Bearer " + token otherwise |
| ApiGateway.ConfigFor | src/utils/APIService.tsx:88-101 | the configuration carries the route's method, a URL starting with the base URL and the route's path, every caller header, the bearer token unless the caller overrides it, and the body exactly when it is truthy |
| ApiGateway.RequestOutcome | src/utils/APIService.tsx:74-131 | what `request` resolves to or rejects with; definition only, its properties are stated by `MissingTokenFails`, `SuccessOutcome` and `NotFoundOutcome`, and `ApiService.Request` is proved equal to it |
| ApiGateway.MissingTokenFails | src/utils/APIService.tsx:83-129 | a missing or empty token rejects with "API Error: No token found, please login again." |
| ApiGateway.TokenOf | src/utils/APIService.tsx:82-86 | the token the gate accepts, present and non-empty; definition only, its properties are stated by `MissingTokenFails`, `SuccessOutcome` and `ApiService.Request` |
| ApiGateway.SuccessOutcome | src/utils/APIService.tsx:81-115 | the request resolves to `data` exactly when a token exists and the HTTP call returned `data` |
| ApiGateway.NotFoundOutcome | src/utils/APIService.tsx:81-129 | the request rejects with "404" exactly when a token exists and the server answered 404 |
| ApiGateway.ApiService.constructor | src/utils/APIService.tsx:68 | no observer is registered and nothing has been sent |
| ApiGateway.ApiService.SetAchievementCheck | src/utils/APIService.tsx:70-72 | the observer is replaced; nothing is sent |
| ApiGateway.ApiService.Request | src/utils/APIService.tsx:74-131 | the result is the pipeline's outcome; no token sends nothing; a token sends exactly one configuration; a registered observer sees the body of a success exactly once and nothing otherwise |
| AchievementTable.ChecksFollowTable | src/config/achievements.ts:27-117 | each hand-written check is the generic check of its entry's kind, at its entry's declared target, on the record under its entry's id |
| AchievementTable.Check | src/config/achievements.ts:27-117 | the nine `check` lambdas as written; definition only, its properties are stated by `ChecksFollowTable` and the lemmas below |
| AchievementTable.Entry | src/config/achievements.ts:25-117 | the ids, titles, descriptions and kinds of the nine entries; definition only, its properties are stated by `EntryIdsDistinct` and `ChecksFollowTable` |
| AchievementTable.EntryIdsDistinct | src/config/achievements.ts:25-117 | no two entries share an id |
| AchievementTable.CheckReadsOwnRecord | src/config/achievements.ts:27-117 | a check depends only on the record named by its entry's id |
| AchievementTable.OneTimeCheck | src/config/achievements.ts:27-47 | a one-time check holds exactly while its record is missing or not completed |
| AchievementTable.StreakCheck | src/config/achievements.ts:50-82 | a streak check holds exactly when progress is present, reaches the target and the record is not completed |
| AchievementTable.QuantityCheck | src/config/achievements.ts:85-117 | a quantity check counts missing progress as 0, fails without a record, and otherwise holds exactly when progress reaches the target and the record is not completed |
| AchievementTable.CompletedNeverChecks | src/config/achievements.ts:27-117 | no check holds once its record is completed |
| AchievementTable.CheckMonotone | src/config/achievements.ts:50-117 | for a record that is not completed, raising the progress never turns a check off |
| UserSession.InitialUser | src/GlobalContext.tsx:51-63 | every text field is empty and gender is true |
| UserSession.Merge | src/GlobalContext.tsx:65-69 | the spread `{ ...prev, ...user }`; definition only, its properties are stated by `MergeByField`, `MergeKeepsIdentityAndWeight`, `MergeIdempotent` and `MergeTwice` |
| UserSession.MergeByField | src/GlobalContext.tsx:65-69 | a key the update carries takes the update's value; every other key keeps its value |
| UserSession.MergeKeepsIdentityAndWeight | src/GlobalContext.tsx:17-69 | `PK` and `weight` survive every update |
| UserSession.MergeIdempotent | src/GlobalContext.tsx:65-69 | applying an update twice equals applying it once |
| UserSession.MergeTwice | src/GlobalContext.tsx:65-69 | two updates in a row equal one update in which the later one's keys win |
| UserSession.UserProvider.constructor | src/GlobalContext.tsx:51-63 | the record starts as the initial record |
| UserSession.UserProvider.UpdateUser | src/GlobalContext.tsx:65-69 | the record becomes the merge of the old record with the update |
| UserSession.UserProvider.CheckUser | src/GlobalContext.tsx:72-87 | a successful fetch replaces the whole record; a failed one leaves it unchanged |
| RouteGuard.DecideRedirectsOnNotFoundOnly | src/ProtectedRoute.tsx:13-16 | the guard navigates, and only to "/new-user", exactly on the error "404"; a success never navigates |
| RouteGuard.Decide | src/ProtectedRoute.tsx:13-16 | the catch block's decision; definition only, its properties are stated by `DecideRedirectsOnNotFoundOnly` |
| RouteGuard.RedirectExactlyOnServerNotFound | src/ProtectedRoute.tsx:10-20 | through the gateway, the guard redirects exactly when a token exists and GET_USER is answered with 404; anything else fails open |
| RouteGuard.ProtectedRoute.constructor | src/ProtectedRoute.tsx:7-27 | the guard starts loading and shows the placeholder, not the children |
| RouteGuard.ProtectedRoute.CheckUser | src/ProtectedRoute.tsx:9-23 | the registered observer stays and sees the profile exactly when the request succeeds; exactly one GET_USER request per mount; navigation per the decision; `loading` false and the children shown afterwards |
| AchievementContext.ShowHideLaws | src/AchievementContext.tsx:20-26 | show replaces the current achievement; show then hide gives null; hide twice equals hide once |
| AchievementContext.ShowAllLeavesLast | src/utils/achievementChecks.ts:21-23 | showing each element in turn leaves the last element current; an empty list leaves the cell unchanged |
| AchievementContext.AchievementProvider.constructor | src/AchievementContext.tsx:18 | no achievement is current initially |
| AchievementContext.AchievementProvider.ShowAchievement | src/AchievementContext.tsx:20-22 | the argument becomes current and is logged |
| AchievementContext.AchievementProvider.HideAchievement | src/AchievementContext.tsx:24-26 | the current achievement becomes null |
| AchievementContext.UseAchievement | src/AchievementContext.tsx:35-41 | without a provider the result is the error "useAchievement must be used within an AchievementProvider"; with one, that provider |
| AchievementChecks.AchievementsOf | src/utils/achievementChecks.ts:20 | the elements shown are the `achievements` array when there is one, and none otherwise |
| AchievementChecks.CheckAchievements | src/utils/achievementChecks.ts:18-25 | one show per element, in array order; afterwards the last element is current, or nothing changed for no elements |
| PushWorker.PayloadFields | public/worker.js:6-10 | title, body (from `text`) and icon are the payload's fields when truthy, and "Default Title", "Default body text" and "/AppIcon.svg" otherwise |
| PushWorker.BodyKeyIgnored | public/worker.js:8 | the payload's `body` key never affects the notification |
| PushWorker.NoDataDefaults | public/worker.js:3-10 | a push without data, or with a JSON null payload, shows the all-defaults notification, which is not the error notification |
| PushWorker.ErrorOnlyOnMalformed | public/worker.js:15-21 | the error notification, titled "Push Error" with the body "Something went wrong handling the push notification." and no icon, is shown exactly when reading the payload threw |
| PushWorker.HandlePush | public/worker.js:1-23 | the one notification of a push event; definition only, its properties are stated by `PayloadFields`, `NoDataDefaults` and `ErrorOnlyOnMalformed` |
| PushWorker.FromPayload | public/worker.js:6-10 | title, body and icon with their `||` defaults; definition only, its properties are stated by `PayloadFields` and `BodyKeyIgnored` |
| Onboarding.InitialDetails | src/pages/NewUser.tsx:20-27 | text fields start empty; height and weight start at the number 0 |
| Onboarding.ChangeTouchesOneField | src/pages/NewUser.tsx:29-35 | a change sets only the named field, as a number for height and as raw text for every other field, weight included |
| Onboarding.BodyProjection | src/pages/NewUser.tsx:101-108 | the body maps username to nickname, copies names and email, sends height as `Number` of the details' height, and is unaffected by weight |
| Onboarding.Set | src/pages/NewUser.tsx:29-35 | the computed-key spread; definition only, its properties are stated by `ChangeTouchesOneField` |
| Onboarding.Converted | src/pages/NewUser.tsx:33 | `Number` only for `height`; definition only, its properties are stated by `ChangeTouchesOneField` |
| Onboarding.ToNumber | src/pages/NewUser.tsx:107 | `Number(v)` always gives a number, converted from the text it holds or kept as the number it already is |
| Onboarding.BodyOf | src/pages/NewUser.tsx:101-108 | the UPDATE_USER body; definition only, its properties are stated by `BodyProjection` |
| Onboarding.NewUserPage.constructor | src/pages/NewUser.tsx:20-27 | the page starts from the initial details |
| Onboarding.NewUserPage.HandleChange | src/pages/NewUser.tsx:29-35 | the details become the old details with the one field set |
| Onboarding.NewUserPage.Complete | src/pages/NewUser.tsx:99-113 | whatever the details hold, UPDATE_USER (POST /user-profile) is sent with their body and the page navigates to "/" |
| ProfileValidation.PaddingLaws | src/pages/Profile.tsx:27 | the padding is at most 3, makes the length a multiple of 4, and is the least count that does |
| ProfileValidation.ReplaceAll | src/pages/Profile.tsx:28 | a global one-character replacement changes exactly the matching characters and keeps the length |
| ProfileValidation.NormaliseBase64Shape | src/pages/Profile.tsx:27-28 | the normalised string is the input with '-' turned into '+' and '_' into '/', every other character unchanged, padded with '=' to a multiple of 4; it holds no '-' or '_' |
| ProfileValidation.NormaliseBase64 | src/pages/Profile.tsx:27-28 | padding and character substitution; definition only, its properties are stated by `PaddingLaws`, `ReplaceAll` and `NormaliseBase64Shape` |
| ProfileValidation.UrlBase64ToBytes | src/pages/Profile.tsx:26-37 | when `atob` fails there is no array; otherwise the array has the decoded length and byte i is the char code at i reduced to eight bits |
| ProfileValidation.CleanPhone | src/pages/Profile.tsx:112 | the cleaned value holds only digits and '+' and is no longer than the input |
| ProfileValidation.CleanKeepsDigitsAndPlus | src/pages/Profile.tsx:112 | a value of digits and '+' is kept as it is |
| ProfileValidation.CleanIdempotent | src/pages/Profile.tsx:112 | cleaning twice is cleaning once |
| ProfileValidation.CleanOneChar | src/pages/Profile.tsx:112 | a single character is kept exactly when it is a digit or '+', and dropped otherwise |
| ProfileValidation.CleanConcat | src/pages/Profile.tsx:112 | cleaning a concatenation is concatenating the cleaned pieces, so every digit and '+' of the input is kept, in order |
| ProfileValidation.CleanDropsSeparators | src/pages/Profile.tsx:112 | digit groups joined by separators clean to their digits |
| ProfileValidation.SeparatedNumberFormatted | src/pages/Profile.tsx:112-122 | "123-456-7890" cleans to "1234567890" and is stored as "+1 (123) 456-7890" |
| ProfileValidation.PhoneVerdictCases | src/pages/Profile.tsx:106-132 | exactly ten cleaned characters are formatted; otherwise the raw value is kept exactly when it matches the phone pattern and rejected when it does not |
| ProfileValidation.Matches | src/pages/Profile.tsx:108-123 | an anchored regex `test` with backtracking over optional and repeated atoms; definition only, its properties are stated by `MatchExcludes`, `MatchEachAtomOnce`, `OptionalFirstOnly` and `HeightLanguage` |
| ProfileValidation.MatchExcludes | src/pages/Profile.tsx:108-123 | a pattern none of whose atoms admits a character matches no string holding it |
| ProfileValidation.MatchEachAtomOnce | src/pages/Profile.tsx:108-123 | a string whose characters are each taken by the atom in the same position, none repeating, matches |
| ProfileValidation.OptionalFirstOnly | src/pages/Profile.tsx:108-109 | when only the first atom, an optional `x`, admits `x`, a match holds `x` at most at its start |
| ProfileValidation.FormatPhone | src/pages/Profile.tsx:116-119 | the `+1 (XXX) XXX-XXXX` template; definition only, its properties are stated by `FormattedDigitsMatch`, `PlusCountsTowardTen` and `SeparatedNumberFormatted` |
| ProfileValidation.PhoneVerdictOf | src/pages/Profile.tsx:111-131 | the three-way decision of `validatePhone`; definition only, its properties are stated by `PhoneVerdictCases` |
| ProfileValidation.FormattedDigitsMatch | src/pages/Profile.tsx:114-122 | ten digits format into "+1 (XXX) XXX-XXXX" with the digits in order, and the phone pattern accepts the result |
| ProfileValidation.PhonePatternPlusOnlyFirst | src/pages/Profile.tsx:108-109 | a number the phone pattern accepts has no '+' after its first character |
| ProfileValidation.PhoneAtomsAfterFirst | src/pages/Profile.tsx:108-109 | the phone pattern opens with an optional '+', and no later atom admits '+' |
| ProfileValidation.LaterPlusRejected | src/pages/Profile.tsx:108-109 | a '+' after the first character rules a number out |
| ProfileValidation.PlusCountsTowardTen | src/pages/Profile.tsx:112-122 | "+123456789" cleans to itself and is formatted into "+1 (+12) 345-6789" |
| ProfileValidation.FormattedPlusRejected | src/pages/Profile.tsx:108-122 | the phone pattern rejects "+1 (+12) 345-6789" |
| ProfileValidation.HeightLanguage | src/pages/Profile.tsx:136 | the height pattern accepts exactly digit strings, optionally followed by one '.' and at most one digit; a valid height is such a string and not empty |
| ProfileValidation.HeightExamples | src/pages/Profile.tsx:135-144 | ".", "12." and "172.5" are valid heights; "" and "1.25" are not |
| ProfileValidation.HeightValid | src/pages/Profile.tsx:135-144 | the height check; definition only, its properties are stated by `HeightLanguage` and `HeightExamples` |
| ProfileValidation.EmailAccepts | src/pages/Profile.tsx:96 | a non-empty local part, '@', a non-empty domain, '.' and a listed suffix form a valid email |
| ProfileValidation.EmailShape | src/pages/Profile.tsx:96 | a valid email has exactly one '@', ends in '.' plus a listed suffix, and holds no whitespace |
| ProfileValidation.EmailValid | src/pages/Profile.tsx:95-97 | the email regex as a split predicate; definition only, its properties are stated by `EmailAccepts` and `EmailShape` |
| ProfilePage.InitialValues | src/pages/Profile.tsx:56-65 | the form starts from the record's fields, with gender shown as "Male" exactly when the record's gender is true |
| ProfilePage.InitialPicture | src/pages/Profile.tsx:51-53 | the picture is the record's URL, or "https://www.google.com" when that is empty |
| ProfilePage.SaveAllowed | src/pages/Profile.tsx:188-192 | all three validators pass; definition only, `HandleSave` states its use |
| ProfilePage.BodyOf | src/pages/Profile.tsx:209-219 | the UPDATE_USER body; definition only, its properties are stated by `BodyFields` |
| ProfilePage.ContextUpdate | src/pages/Profile.tsx:224-227 | the `updateUser` argument; definition only, its properties are stated by `SavedRecord` and `ReloadAfterSave` |
| ProfilePage.BodyFields | src/pages/Profile.tsx:209-219 | nickname, first and last name, email, phone and birthdate are sent as they are, null as ""; the picture URL is sent; gender is true exactly for "Male"; height is 0 exactly when null or empty |
| ProfilePage.SavedRecord | src/pages/Profile.tsx:224-227 | after the context update, `PK` and weight are kept; nickname, first and last name, email, phone, birthdate, picture and gender take the body's values; height takes its text or "0" |
| ProfilePage.UneditedSaveKeepsRecord | src/pages/Profile.tsx:68-82 | saving the values and picture loaded from a record, unedited, gives the record back, except that an empty height becomes "0" |
| ProfilePage.ReloadAfterSave | src/pages/Profile.tsx:68-82 | after a save the reloaded form shows the phone and email the body carried and the height as typed, and the record holds the sent picture |
| ProfilePage.ProfileForm.constructor | src/pages/Profile.tsx:48-87 | the form starts from the record's values and its own picture URL (the mount effect replaces the first render's default), not editing, with no errors |
| ProfilePage.ProfileForm.FetchUserData | src/pages/Profile.tsx:68-82 | the values and the picture are loaded from the record, with no picture default; nothing else changes |
| ProfilePage.ProfileForm.HandleCancel | src/pages/Profile.tsx:244-247 | editing ends and the form is loaded again from the session's record; the selected image and the errors are kept |
| ProfilePage.ProfileForm.ValidateEmail | src/pages/Profile.tsx:94-103 | the result is whether the value is a valid email; the email error is set or cleared to match; nothing else changes |
| ProfilePage.ProfileForm.ValidatePhone | src/pages/Profile.tsx:106-132 | the result is whether the value is accepted; an accepted value is stored, formatted when it has ten cleaned characters; the phone error is set or cleared to match |
| ProfilePage.ProfileForm.ValidateHeight | src/pages/Profile.tsx:135-144 | the result is whether the value is a valid height; the height error is set or cleared to match |
| ProfilePage.ProfileForm.HandleSave | src/pages/Profile.tsx:188-242 | all three validators run and set their errors; if any fails, or the upload fails, nothing is sent and the record is unchanged; otherwise the record is merged, the UPDATE_USER route and body sent from the values captured before validation, the form loaded again from the merged record, and editing ends if the request succeeded |

## Left out

- Network and authentication I/O. The token source, the HTTP client and the S3 upload are parameters (`Session`, `transport`, `upload`); the upload's own steps (src/pages/Profile.tsx:160-185) are not modelled.
- Console logging and `alert`: no effect on state.
- `encodeURIComponent`, `window.atob` and `event.data.json()`: parameters, or a `PushData` value.
- ApiGateway.ApiService.Request: an observer that throws is not modelled. Its error would be normalised like any other.
- ApiGateway.ApiService.Request: takes a `Route`, so an unregistered route name (possible only through an `as ApiRoute` cast, and failing before the try block) is not modelled.
- Route lookup by string key: routes are the constructors of `Route`, which is what the `ApiRoute` type allows; looking up an arbitrary string key is not modelled.
- ApiGateway.EntryPairs: a non-array parameter value and every item of an array value are modelled by their string form (`Scalar(text)`, `List(items: seq<string>)`); JavaScript's stringification of numbers, objects, `null` and `undefined` before encoding is not modelled.
- Floating point. `parseFloat(height)` in the profile body is kept symbolically as the text it parses (`ParsedFrom`). `Number(...)` in the onboarding body is kept the same way (`NumberOf`). `calculateBMI` (src/pages/Profile.tsx:147-157) is not modelled.
- ProfileValidation.NormaliseBase64: the padding is computed from the length in Unicode scalar values, while JavaScript's `.length` counts UTF-16 code units; the two differ only for input outside the Basic Multilingual Plane, which a base64url key never holds.
- ProfileValidation.UrlBase64ToBytes: the char code is taken per Unicode scalar value, not per UTF-16 code unit; `atob` only yields characters below 256, where the two agree.
- Profile page: the notification toggle and its service-worker subscription (src/pages/Profile.tsx:249-309) are not modelled. The `[user]` effect is `FetchUserData`, run by the constructor and after the record update in `HandleSave`; a record change made elsewhere while the page is open is not modelled.
- Timers and asynchronous ordering. Each handler runs to completion in order. The popup's auto-hide timer is not modelled. Neither is onboarding's unawaited request racing the navigation.
- The popups, the rendering of every page, the dashboard and the workout plan page are not part of this model.
- Optimistic updates with rollback: `updateUser` in src/GlobalContext.tsx merges at once and keeps no earlier record, and `handleSave` never restores one when the request fails.
- UserSession.UserProvider.CheckUser: the fetched `response.data` is typed `any` in src/GlobalContext.tsx and stored as it comes; the model takes it to be a well-formed user record, so a missing or malformed `data` field, and storing `undefined`, are not modelled.
- ApiGateway.BuildUrl: `encodeURIComponent` throws a URIError on a lone surrogate, and `request` then rejects with "API Error: URI malformed" without sending anything. Here `encode` is a total function on Dafny strings, which cannot hold a lone surrogate, so that path is not modelled.
- Common.Json: JSON numbers are integers (`JNum(int)`), and so is an achievement record's `progress`; fractional numbers are not modelled.

=== FILE: achievement_context.dfy ===
/** The achievement notification cell of src/AchievementContext.tsx: one
    "current achievement" (null when none), set by `showAchievement`, cleared
    by `hideAchievement`, and the `useAchievement` guard. */
module AchievementContext {
  import opened Common

  const ProviderMissingMessage: string := "useAchievement must be used within an AchievementProvider"

  /** What a consumer can do to the cell. `JNull` is the "no achievement"
      value; an element shown is stored as it is, whatever its shape. */
  datatype Action = Show(achievement: Json) | Hide

  /** The cell after one action. */
  function Next(current: Json, action: Action): Json
  {
    match action
    case Show(a) => a
    case Hide => JNull
  }

  /** The cell after a run of actions, applied in order. */
  function Run(current: Json, actions: seq<Action>): Json
    decreases |actions|
  {
    if actions == [] then current else Run(Next(current, actions[0]), actions[1..])
  }

  /** One `Show` per element, in element order. */
  function ShowAll(items: seq<Json>): (r: seq<Action>)
    ensures |r| == |items|
    ensures forall i :: 0 <= i < |items| ==> r[i] == Show(items[i])
  {
    seq(|items|, i requires 0 <= i < |items| => Show(items[i]))
  }

  /** Show replaces whatever was current; hide clears it, once or twice. */
  lemma ShowHideLaws(current: Json, a: Json)
    ensures Next(current, Show(a)) == a
    ensures Next(Next(current, Show(a)), Hide) == JNull
    ensures Next(Next(current, Hide), Hide) == Next(current, Hide)
  {
  }

  /** Running one more action after a run. */
  lemma {:induction false} RunSnoc(current: Json, actions: seq<Action>, last: Action)
    ensures Run(current, actions + [last]) == Next(Run(current, actions), last)
    decreases |actions|
  {
    if actions != [] {
      assert (actions + [last])[1..] == actions[1..] + [last];
      RunSnoc(Next(current, actions[0]), actions[1..], last);
    }
  }

  /** After showing every element of a list, the last element is current; an
      empty list leaves the cell as it was. */
  lemma {:induction false} ShowAllLeavesLast(current: Json, items: seq<Json>)
    ensures items == [] ==> Run(current, ShowAll(items)) == current
    ensures items != [] ==> Run(current, ShowAll(items)) == items[|items| - 1]
    decreases |items|
  {
    if items != [] {
      assert ShowAll(items)[1..] == ShowAll(items[1..]);
      ShowAllLeavesLast(items[0], items[1..]);
    }
  }

  /** The `AchievementProvider` state. The ghost log records every argument
      `showAchievement` received. */
  class AchievementProvider {
    var currentAchievement: Json
    ghost var shown: seq<Json>

    constructor ()
      ensures currentAchievement == JNull && shown == []
    {
      currentAchievement := JNull;
      shown := [];
    }

    method ShowAchievement(a: Json)
      modifies this
      ensures currentAchievement == Next(old(currentAchievement), Show(a))
      ensures shown == old(shown) + [a]
    {
      currentAchievement := a;
      shown := shown + [a];
    }

    method HideAchievement()
      modifies this
      ensures currentAchievement == Next(old(currentAchievement), Hide)
      ensures shown == old(shown)
    {
      currentAchievement := JNull;
    }
  }

  /** `useAchievement()`: the nearest provider, or the error thrown when there
      is none. */
  function UseAchievement(context: Option<AchievementProvider>): (r: Result<AchievementProvider>)
    ensures context.None? <==> r == Failure("useAchievement must be used within an AchievementProvider")
    ensures context.Some? ==> r == Success(context.value)
  {
    if context.None? then Failure(ProviderMissingMessage) else Success(context.value)
  }
}

/** The response observer of src/utils/achievementChecks.ts. */
module AchievementChecks {
  import opened Common
  import opened AchievementContext

  /** The elements the observer shows: the response's `achievements` when it
      is an array, and none otherwise. */
  function AchievementsOf(response: Json): (r: seq<Json>)
    ensures !Prop(response, "achievements").JArr? ==> r == []
    ensures Prop(response, "achievements").JArr? ==> r == Prop(response, "achievements").items
  {
    var a := Prop(response, "achievements");
    if Truthy(a) && a.JArr? then a.items else []
  }

  /** `checkAchievements(response)`: one `showAchievement` per element, in
      order, so the last element ends up current. */
  method CheckAchievements(provider: AchievementProvider, response: Json)
    modifies provider
    ensures provider.shown == old(provider.shown) + AchievementsOf(response)
    ensures provider.currentAchievement == Run(old(provider.currentAchievement), ShowAll(AchievementsOf(response)))
    ensures AchievementsOf(response) == [] ==> provider.currentAchievement == old(provider.currentAchievement)
    ensures AchievementsOf(response) != [] ==>
      provider.currentAchievement == AchievementsOf(response)[|AchievementsOf(response)| - 1]
  {
    var achievements := Prop(response, "achievements");
    if Truthy(achievements) && achievements.JArr? {
      var items := achievements.items;
      var i := 0;
      while i < |items|
        invariant 0 <= i <= |items|
        invariant provider.shown == old(provider.shown) + items[..i]
        invariant provider.currentAchievement == Run(old(provider.currentAchievement), ShowAll(items[..i]))
      {
        RunSnoc(old(provider.currentAchievement), ShowAll(items[..i]), Show(items[i]));
        assert ShowAll(items[..i + 1]) == ShowAll(items[..i]) + [Show(items[i])];
        assert items[..i + 1] == items[..i] + [items[i]];
        provider.ShowAchievement(items[i]);
        i := i + 1;
      }
      assert items[..|items|] == items;
    }
    ShowAllLeavesLast(old(provider.currentAchievement), AchievementsOf(response));
  }
}

=== FILE: achievements.dfy ===
/** The achievement table of src/config/achievements.ts: nine entries, each with
    a declared kind (one-time, streak or quantity), a target for the last two,
    and a `check` predicate over the user's achievement record. */
module AchievementTable {
  import opened Common

  /** One entry of the user's achievement record. `completed` is read for its
      truthiness only; `progress` may be absent. */
  datatype Record = Record(progress: Option<int>, completed: bool)

  /** The `achievements` argument of a check: an object keyed by achievement
      id, or undefined. */
  type Records = Option<map<string, Record>>

  datatype Kind = OneTime | Streak(target: int) | Quantity(target: int)

  datatype Achievement = Achievement(id: string, title: string, description: string, kind: Kind)

  datatype AchievementKey =
    | FirstWorkout | FirstHealthLog | FirstWeeklyPlan
    | FiveDayStreak | SevenDayStreak | ThirtyDayStreak
    | WorkoutCreator | HealthLogger | WorkoutFavoriter

  /** The `ACHIEVEMENTS` table without its `check` members. */
  function Entry(k: AchievementKey): Achievement
  {
    match k
    case FirstWorkout => Achievement("first_workout", "First Workout!", "You logged your first workout", OneTime)
    case FirstHealthLog => Achievement("first_health_log", "First Health Log!", "You logged your first health data", OneTime)
    case FirstWeeklyPlan => Achievement("first_weekly_plan", "First Weekly Plan!", "You created your first weekly workout plan", OneTime)
    case FiveDayStreak => Achievement("five_day_streak", "5 Day Streak!", "You logged workouts for 5 days in a row", Streak(5))
    case SevenDayStreak => Achievement("seven_day_streak", "7 Day Streak!", "You logged workouts for 7 days in a row", Streak(7))
    case ThirtyDayStreak => Achievement("thirty_day_streak", "30 Day Streak!", "You logged workouts for 30 days in a row", Streak(30))
    case WorkoutCreator => Achievement("workout_creator", "Workout Creator!", "You created 10 workout plans", Quantity(10))
    case HealthLogger => Achievement("health_logger", "Health Logger!", "You logged 50 health data points", Quantity(50))
    case WorkoutFavoriter => Achievement("workout_favoriter", "Workout Favoriter!", "You favorited 20 workout plans", Quantity(20))
  }

  /** The table's ids are distinct: each entry reads a record of its own. */
  lemma EntryIdsDistinct(k1: AchievementKey, k2: AchievementKey)
    ensures Entry(k1).id == Entry(k2).id ==> k1 == k2
  {
  }

  /** `achievements?.[id]`. */
  function Lookup(recs: Records, id: string): Option<Record>
  {
    if recs.Some? && id in recs.value then Some(recs.value[id]) else None
  }

  /** `!rec?.completed`. */
  predicate NotCompleted(rec: Option<Record>)
  {
    rec.None? || !rec.value.completed
  }

  /** `rec?.progress >= target`: an absent progress compares false. */
  predicate ProgressAtLeast(rec: Option<Record>, target: int)
  {
    rec.Some? && rec.value.progress.Some? && rec.value.progress.value >= target
  }

  /** `rec?.progress || 0`. */
  function ProgressOrZero(rec: Option<Record>): int
  {
    if rec.Some? && rec.value.progress.Some? then rec.value.progress.value else 0
  }

  /** Each entry's `check`, written as the table writes it: the record's field
      and the threshold are spelled out per entry. */
  predicate Check(k: AchievementKey, recs: Records)
  {
    match k
    case FirstWorkout => NotCompleted(Lookup(recs, "first_workout"))
    case FirstHealthLog => NotCompleted(Lookup(recs, "first_health_log"))
    case FirstWeeklyPlan => NotCompleted(Lookup(recs, "first_weekly_plan"))
    case FiveDayStreak =>
      var streak := Lookup(recs, "five_day_streak");
      ProgressAtLeast(streak, 5) && NotCompleted(streak)
    case SevenDayStreak =>
      var streak := Lookup(recs, "seven_day_streak");
      ProgressAtLeast(streak, 7) && NotCompleted(streak)
    case ThirtyDayStreak =>
      var streak := Lookup(recs, "thirty_day_streak");
      ProgressAtLeast(streak, 30) && NotCompleted(streak)
    case WorkoutCreator =>
      var progress := ProgressOrZero(Lookup(recs, "workout_creator"));
      progress >= 10 && NotCompleted(Lookup(recs, "workout_creator"))
    case HealthLogger =>
      var progress := ProgressOrZero(Lookup(recs, "health_logger"));
      progress >= 50 && NotCompleted(Lookup(recs, "health_logger"))
    case WorkoutFavoriter =>
      var progress := ProgressOrZero(Lookup(recs, "workout_favoriter"));
      progress >= 20 && NotCompleted(Lookup(recs, "workout_favoriter"))
  }

  /** What an achievement's declared kind, id and target promise. */
  predicate Earned(a: Achievement, recs: Records)
  {
    var rec := Lookup(recs, a.id);
    match a.kind
    case OneTime => NotCompleted(rec)
    case Streak(target) => ProgressAtLeast(rec, target) && NotCompleted(rec)
    case Quantity(target) => ProgressOrZero(rec) >= target && NotCompleted(rec)
  }

  /** Every hand-written check reads the record field named by its entry's id
      and compares against its entry's declared target. */
  lemma ChecksFollowTable(k: AchievementKey, recs: Records)
    ensures Check(k, recs) == Earned(Entry(k), recs)
  {
  }

  /** A check depends on nothing but the record under its own id. */
  lemma CheckReadsOwnRecord(k: AchievementKey, recs1: Records, recs2: Records)
    requires Lookup(recs1, Entry(k).id) == Lookup(recs2, Entry(k).id)
    ensures Check(k, recs1) == Check(k, recs2)
  {
    ChecksFollowTable(k, recs1);
    ChecksFollowTable(k, recs2);
  }

  /** One-time checks hold exactly while the record is missing or not
      completed. */
  lemma OneTimeCheck(k: AchievementKey, recs: Records)
    requires Entry(k).kind.OneTime?
    ensures Check(k, recs) <==>
      Lookup(recs, Entry(k).id).None? || !Lookup(recs, Entry(k).id).value.completed
  {
  }

  /** Streak checks hold exactly when a progress is present, reaches the
      target, and the record is not completed. */
  lemma StreakCheck(k: AchievementKey, recs: Records)
    requires Entry(k).kind.Streak?
    ensures var rec := Lookup(recs, Entry(k).id);
      Check(k, recs) <==>
        rec.Some? && rec.value.progress.Some? &&
        rec.value.progress.value >= Entry(k).kind.target && !rec.value.completed
  {
  }

  /** Quantity checks count a missing progress as 0, so they fail without a
      record and otherwise hold exactly when the progress reaches the target
      and the record is not completed. */
  lemma QuantityCheck(k: AchievementKey, recs: Records)
    requires Entry(k).kind.Quantity?
    ensures Entry(k).kind.target > 0
    ensures Lookup(recs, Entry(k).id).None? ==> !Check(k, recs)
    ensures var rec := Lookup(recs, Entry(k).id);
      rec.Some? ==>
        (Check(k, recs) <==> ProgressOrZero(rec) >= Entry(k).kind.target && !rec.value.completed)
  {
  }

  /** No check holds once its record is completed. */
  lemma CompletedNeverChecks(k: AchievementKey, recs: Records)
    requires Lookup(recs, Entry(k).id).Some? && Lookup(recs, Entry(k).id).value.completed
    ensures !Check(k, recs)
  {
    ChecksFollowTable(k, recs);
  }

  /** The record object with one entry replaced. */
  function WithRecord(recs: Records, id: string, rec: Record): (r: Records)
    ensures Lookup(r, id) == Some(rec)
    ensures forall other :: other != id ==> Lookup(r, other) == Lookup(recs, other)
  {
    Some(if recs.Some? then recs.value[id := rec] else map[id := rec])
  }

  /** Raising the progress of a record that is not completed never turns a
      check from true to false. */
  lemma CheckMonotone(k: AchievementKey, recs: Records, p: int, q: int)
    requires p <= q
    requires Check(k, WithRecord(recs, Entry(k).id, Record(Some(p), false)))
    ensures Check(k, WithRecord(recs, Entry(k).id, Record(Some(q), false)))
  {
    ChecksFollowTable(k, WithRecord(recs, Entry(k).id, Record(Some(p), false)));
    ChecksFollowTable(k, WithRecord(recs, Entry(k).id, Record(Some(q), false)));
  }
}

=== FILE: api_gateway.dfy ===
/** The request gateway of src/utils/APIService.tsx: the closed route registry,
    the query-string builder, the error normalisation and the `APIService`
    object whose `request` runs token check, URL construction, header merge,
    the HTTP call and the achievement observer. */
module ApiGateway {
  import opened Common

  const BaseUrl: string := "https://34pdw0bjyi.execute-api.us-east-1.amazonaws.com/default/api"

  // ---------------------------------------------------------------------------
  // Route registry
  // ---------------------------------------------------------------------------

  datatype Method = GET | POST | DELETE

  datatype Route =
    | GetHealthData | UpdateHealthData
    | GetUser | UpdateUser | DeleteUser
    | DeleteWorkoutCard | UpdateWorkoutCard | GetWorkoutCard
    | GetWeeklyPlan | StoreWeeklyPlan | DeleteWeeklyPlan
    | ListTable | GetGoals | UpdateGoals | UploadPfp
    | SubscribeNotification | UnsubscribeNotification
    | Quicksight | GetNotifications | DeleteNotification
    | FavoriteWorkout

  datatype Endpoint = Endpoint(path: string, verb: Method)

  /** The key under which a route is registered. */
  function NameOf(r: Route): string
  {
    match r
    case GetHealthData => "GET_HEALTH_DATA"
    case UpdateHealthData => "UPDATE_HEALTH_DATA"
    case GetUser => "GET_USER"
    case UpdateUser => "UPDATE_USER"
    case DeleteUser => "DELETE_USER"
    case DeleteWorkoutCard => "DELETE_WORKOUT_CARD"
    case UpdateWorkoutCard => "UPDATE_WORKOUT_CARD"
    case GetWorkoutCard => "GET_WORKOUT_CARD"
    case GetWeeklyPlan => "GET_WEEKLY_PLAN"
    case StoreWeeklyPlan => "STORE_WEEKLY_PLAN"
    case DeleteWeeklyPlan => "DELETE_WEEKLY_PLAN"
    case ListTable => "LIST_TABLE"
    case GetGoals => "GET_GOALS"
    case UpdateGoals => "UPDATE_GOALS"
    case UploadPfp => "UPLOAD_PFP"
    case SubscribeNotification => "SUBSCRIBE_NOTIFICATION"
    case UnsubscribeNotification => "UNSUBSCRIBE_NOTIFICATION"
    case Quicksight => "QUICKSIGHT"
    case GetNotifications => "GET_NOTIFICATIONS"
    case DeleteNotification => "DELETE_NOTIFICATION"
    case FavoriteWorkout => "FAVORITE_WORKOUT"
  }

  /** The (path, method) pair registered for a route. Every path is absolute
      and carries no query part. */
  function EndpointOf(r: Route): (e: Endpoint)
    ensures |e.path| > 1 && e.path[0] == '/'
    ensures '?' !in e.path
  {
    match r
    case GetHealthData => Endpoint("/health-data", GET)
    case UpdateHealthData => Endpoint("/health-data", POST)
    case GetUser => Endpoint("/user-profile", GET)
    case UpdateUser => Endpoint("/user-profile", POST)
    case DeleteUser => Endpoint("/user-profile", DELETE)
    case DeleteWorkoutCard => Endpoint("/workoutplan-card", DELETE)
    case UpdateWorkoutCard => Endpoint("/workoutplan-card", POST)
    case GetWorkoutCard => Endpoint("/workoutplan-card", GET)
    case GetWeeklyPlan => Endpoint("/workoutplan-weekly", GET)
    case StoreWeeklyPlan => Endpoint("/workoutplan-weekly", POST)
    case DeleteWeeklyPlan => Endpoint("/workoutplan-weekly", DELETE)
    case ListTable => Endpoint("/health-data/tables", GET)
    case GetGoals => Endpoint("/goals", GET)
    case UpdateGoals => Endpoint("/goals", POST)
    case UploadPfp => Endpoint("/user-profile/upload-url", GET)
    case SubscribeNotification => Endpoint("/user-profile/subscribe", POST)
    case UnsubscribeNotification => Endpoint("/user-profile/unsubscribe", POST)
    case Quicksight => Endpoint("/quicksight", GET)
    case GetNotifications => Endpoint("/user-profile/notifications", GET)
    case DeleteNotification => Endpoint("/user-profile/notifications", DELETE)
    case FavoriteWorkout => Endpoint("/workoutplan-card-fav", POST)
  }

  /** No two routes are registered under the same key, so each key of
      `API_ROUTES` names exactly one route and, through `EndpointOf`, exactly
      one (path, method) pair. */
  lemma NamesDistinct(r1: Route, r2: Route)
    ensures NameOf(r1) == NameOf(r2) ==> r1 == r2
  {
  }

  /** No two routes share a (path, method) pair. */
  lemma EndpointsDistinct(r1: Route, r2: Route)
    ensures EndpointOf(r1) == EndpointOf(r2) ==> r1 == r2
  {
  }

  // ---------------------------------------------------------------------------
  // Query strings
  // ---------------------------------------------------------------------------

  /** A query parameter's value: an array is repeated key by key, anything
      else is one value (modelled by its string form). */
  datatype ParamValue = Scalar(text: string) | List(items: seq<string>)

  /** `Object.entries(queryParams)`, in entry order. */
  type QueryParams = seq<(string, ParamValue)>

  /** `Array.prototype.join(sep)`. */
  function Join(parts: seq<string>, sep: char): string
  {
    if |parts| == 0 then ""
    else if |parts| == 1 then parts[0]
    else parts[0] + [sep] + Join(parts[1..], sep)
  }

  /** `String.prototype.split(sep)` for a one-character separator. */
  function Split(s: string, sep: char): (r: seq<string>)
    ensures |r| > 0
  {
    if s == [] then [""]
    else
      var rest := Split(s[1..], sep);
      if s[0] == sep then [""] + rest else [[s[0]] + rest[0]] + rest[1..]
  }

  /** `${encodeURIComponent(key)}=${encodeURIComponent(value)}`. */
  function Pair(encode: string -> string, key: string, value: string): string
  {
    encode(key) + "=" + encode(value)
  }

  function ItemPairs(encode: string -> string, key: string, items: seq<string>): seq<string>
  {
    seq(|items|, i requires 0 <= i < |items| => Pair(encode, key, items[i]))
  }

  /** What one entry of the parameter object becomes before the outer join. */
  function EntrySegment(encode: string -> string, entry: (string, ParamValue)): string
  {
    match entry.1
    case List(items) => Join(ItemPairs(encode, entry.0, items), '&')
    case Scalar(t) => Pair(encode, entry.0, t)
  }

  function Segments(encode: string -> string, params: QueryParams): (r: seq<string>)
  {
    if params == [] then [] else [EntrySegment(encode, params[0])] + Segments(encode, params[1..])
  }

  function QueryString(encode: string -> string, params: QueryParams): string
  {
    Join(Segments(encode, params), '&')
  }

  /** `buildUrl(path, queryParams)`: the base URL and the path, followed by a
      query part exactly when parameters are given. */
  function BuildUrl(path: string, queryParams: Option<QueryParams>, encode: string -> string): (r: string)
    ensures |BaseUrl + path| <= |r| && r[..|BaseUrl + path|] == BaseUrl + path
    ensures queryParams.None? <==> |r| == |BaseUrl + path|
    ensures queryParams.Some? ==> r[|BaseUrl + path|] == '?'
  {
    if queryParams.None? then BaseUrl + path
    else BaseUrl + path + "?" + QueryString(encode, queryParams.value)
  }

  /** Reference reading of the builder: the key=value pairs an entry stands
      for, one for a scalar and one per array element. An empty array stands
      for one empty segment (the join of no pairs). */
  function EntryPairs(encode: string -> string, entry: (string, ParamValue)): (r: seq<string>)
    ensures |r| > 0
  {
    match entry.1
    case Scalar(t) => [Pair(encode, entry.0, t)]
    case List(items) => if items == [] then [""] else ItemPairs(encode, entry.0, items)
  }

  /** All pairs of all entries, in entry order and element order. */
  function FlatPairs(encode: string -> string, params: QueryParams): (r: seq<string>)
    ensures |r| >= |params|
  {
    if params == [] then [] else EntryPairs(encode, params[0]) + FlatPairs(encode, params[1..])
  }

  /** A scalar stands for exactly one `key=value` pair; a non-empty array for
      one `key=item` pair per element, in element order. */
  lemma EntryPairsShape(encode: string -> string, key: string, value: ParamValue)
    ensures value.Scalar? ==> EntryPairs(encode, (key, value)) == [encode(key) + "=" + encode(value.text)]
    ensures value.List? && value.items != [] ==>
      var r := EntryPairs(encode, (key, value));
      |r| == |value.items| && forall i :: 0 <= i < |r| ==> r[i] == encode(key) + "=" + encode(value.items[i])
  {
  }

  predicate NoSeparator(parts: seq<string>, sep: char)
  {
    forall i :: 0 <= i < |parts| ==> sep !in parts[i]
  }

  lemma {:induction false} JoinAppend(a: seq<string>, b: seq<string>, sep: char)
    requires |a| > 0 && |b| > 0
    ensures Join(a + b, sep) == Join(a, sep) + [sep] + Join(b, sep)
  {
    if |a| == 1 {
      assert (a + b)[1..] == b;
    } else {
      assert (a + b)[1..] == a[1..] + b;
      JoinAppend(a[1..], b, sep);
    }
  }

  lemma {:induction false} SplitWithoutSeparator(s: string, sep: char)
    requires sep !in s
    ensures Split(s, sep) == [s]
  {
    if s != [] {
      assert sep !in s[1..];
      SplitWithoutSeparator(s[1..], sep);
      assert [s[0]] + s[1..] == s;
    }
  }

  lemma {:induction false} SplitAtFirst(a: string, b: string, sep: char)
    requires sep !in a
    ensures Split(a + [sep] + b, sep) == [a] + Split(b, sep)
  {
    var s := a + [sep] + b;
    if a == [] {
      assert s[1..] == b;
    } else {
      assert s[1..] == a[1..] + [sep] + b;
      assert sep !in a[1..];
      SplitAtFirst(a[1..], b, sep);
      assert [a[0]] + a[1..] == a;
    }
  }

  /** Splitting a join on its separator gives the parts back when no part
      contains the separator. */
  lemma {:induction false} SplitJoin(parts: seq<string>, sep: char)
    requires |parts| > 0 && NoSeparator(parts, sep)
    ensures Split(Join(parts, sep), sep) == parts
  {
    if |parts| == 1 {
      SplitWithoutSeparator(parts[0], sep);
    } else {
      assert sep !in parts[0];
      SplitAtFirst(parts[0], Join(parts[1..], sep), sep);
      SplitJoin(parts[1..], sep);
      assert [parts[0]] + parts[1..] == parts;
    }
  }

  /** The builder's nested map/join equals one join over the flattened
      pairs: an array contributes its pairs in element order, each entry in
      entry order. */
  lemma {:induction false} QueryStringIsFlatJoin(encode: string -> string, params: QueryParams)
    ensures QueryString(encode, params) == Join(FlatPairs(encode, params), '&')
  {
    if params != [] {
      var e := params[0];
      assert EntrySegment(encode, e) == Join(EntryPairs(encode, e), '&');
      if |params| > 1 {
        QueryStringIsFlatJoin(encode, params[1..]);
        JoinAppend(EntryPairs(encode, e), FlatPairs(encode, params[1..]), '&');
      } else {
        assert params[1..] == [];
        assert Segments(encode, params) == [EntrySegment(encode, e)];
        assert FlatPairs(encode, params) == EntryPairs(encode, e);
      }
    }
  }

  lemma {:induction false} FlatPairsNoSeparator(encode: string -> string, params: QueryParams)
    requires forall s :: '&' !in encode(s)
    ensures NoSeparator(FlatPairs(encode, params), '&')
  {
    if params != [] {
      FlatPairsNoSeparator(encode, params[1..]);
      var head := EntryPairs(encode, params[0]);
      var tail := FlatPairs(encode, params[1..]);
      forall i | 0 <= i < |head| ensures '&' !in head[i] {
        var k := params[0].0;
        match params[0].1
        case Scalar(t) =>
          assert head[i] == encode(k) + "=" + encode(t);
        case List(items) =>
          if items != [] {
            assert head[i] == encode(k) + "=" + encode(items[i]);
          }
      }
      assert FlatPairs(encode, params) == head + tail;
    }
  }

  /** Reading the query string back: when the encoder never emits '&' (as
      encodeURIComponent does not), splitting on '&' yields exactly one
      `key=item` pair per array element and one `key=value` pair per scalar,
      in order; an array is never joined into one comma-separated value. */
  lemma QuerySegmentsParse(encode: string -> string, params: QueryParams)
    requires forall s :: '&' !in encode(s)
    requires params != []
    ensures Split(QueryString(encode, params), '&') == FlatPairs(encode, params)
  {
    QueryStringIsFlatJoin(encode, params);
    FlatPairsNoSeparator(encode, params);
    SplitJoin(FlatPairs(encode, params), '&');
  }

  /** Without a parameter object the URL is the base followed by the route's
      path and has no query part; with one, even an empty one, a '?' follows
      the path. */
  lemma UrlShape(r: Route, queryParams: Option<QueryParams>, encode: string -> string)
    ensures queryParams.None? ==> BuildUrl(EndpointOf(r).path, queryParams, encode) == BaseUrl + EndpointOf(r).path
    ensures queryParams == Some([]) ==> BuildUrl(EndpointOf(r).path, queryParams, encode) == BaseUrl + EndpointOf(r).path + "?"
  {
  }

  // ---------------------------------------------------------------------------
  // Error normalisation
  // ---------------------------------------------------------------------------

  function DigitChar(d: nat): (c: char)
    requires d < 10
    ensures '0' <= c <= '9' && c as int - '0' as int == d
  {
    (d + '0' as int) as char
  }

  predicate AllDigits(s: string)
  {
    forall i :: 0 <= i < |s| ==> '0' <= s[i] <= '9'
  }

  /** `String(status)`: the decimal form of a status code, which becomes the
      error's message. */
  function DecimalString(n: nat): (r: string)
    ensures |r| > 0 && AllDigits(r)
  {
    if n < 10 then [DigitChar(n)] else DecimalString(n / 10) + [DigitChar(n % 10)]
  }

  function ParseDecimal(s: string): nat
    requires AllDigits(s)
  {
    if |s| == 0 then 0
    else ParseDecimal(s[..|s| - 1]) * 10 + (s[|s| - 1] as int - '0' as int)
  }

  lemma {:induction false} ParseDecimalString(n: nat)
    ensures ParseDecimal(DecimalString(n)) == n
  {
    var s := DecimalString(n);
    if n >= 10 {
      ParseDecimalString(n / 10);
      assert s[..|s| - 1] == DecimalString(n / 10);
    }
  }

  /** What the catch block of `request` sees. */
  datatype Caught =
    | WithResponse(status: nat)  // the server answered with an error status
    | WithRequest                // a request went out, no response came back
    | Plain(message: string)     // anything else thrown inside the try

  const ErrorPrefix: string := "API Error: "
  const NoResponseMessage: string := "No response received from server"

  /** The error `request` rethrows, given by its message. */
  function NormaliseError(e: Caught): string
  {
    match e
    case WithResponse(status) => DecimalString(status)
    case WithRequest => ErrorPrefix + NoResponseMessage
    case Plain(m) => ErrorPrefix + m
  }

  predicate StartsWith(s: string, prefix: string)
  {
    |prefix| <= |s| && s[..|prefix|] == prefix
  }

  /** The three kinds of failure stay apart: an HTTP failure yields a message
      made only of digits, the other two a message that starts with
      "API Error: ". */
  lemma ErrorKinds(e: Caught)
    ensures e.WithResponse? ==> AllDigits(NormaliseError(e)) && NormaliseError(e) != ""
    ensures !e.WithResponse? ==> StartsWith(NormaliseError(e), "API Error: ")
    ensures e.WithResponse? <==> AllDigits(NormaliseError(e))
    ensures e == WithRequest ==> NormaliseError(e) == ErrorPrefix + NoResponseMessage
    ensures e.Plain? ==> NormaliseError(e) == ErrorPrefix + e.message
  {
    if e.WithRequest? {
      Prefixed(NoResponseMessage);
    } else if e.Plain? {
      Prefixed(e.message);
    }
  }

  /** A prefixed message starts with a letter, so it is never a status. */
  lemma Prefixed(m: string)
    ensures StartsWith(ErrorPrefix + m, ErrorPrefix)
    ensures !AllDigits(ErrorPrefix + m) && ErrorPrefix + m != "404"
  {
    assert (ErrorPrefix + m)[0] == 'A';
    assert (ErrorPrefix + m)[..|ErrorPrefix|] == ErrorPrefix;
  }

  /** Callers branch on the message "404": it arises exactly from an HTTP
      failure with status 404. */
  lemma NotFoundMessage(e: Caught)
    ensures NormaliseError(e) == "404" <==> e == WithResponse(404)
  {
    if e.WithResponse? && NormaliseError(e) == "404" {
      ParseDecimalString(e.status);
      assert ParseDecimal("404") == 404 by {
        assert "404"[..2] == "40";
        assert "40"[..1] == "4";
        assert "4"[..0] == "";
      }
    }
    if e == WithResponse(404) {
      assert DecimalString(404) == DecimalString(40) + ['4'];
      assert DecimalString(40) == "40";
    }
    if e.WithRequest? {
      Prefixed(NoResponseMessage);
    } else if e.Plain? {
      Prefixed(e.message);
    }
  }

  // ---------------------------------------------------------------------------
  // The request pipeline
  // ---------------------------------------------------------------------------

  /** What `fetchAuthSession()` yielded: the session's access token, if any,
      or the error it threw. */
  datatype Session = Session(accessToken: Option<string>) | SessionError(message: string)

  /** What the HTTP call did with a request. */
  datatype HttpOutcome =
    | Ok(data: Json)            // a 2xx response and its body
    | ErrorStatus(status: nat)  // a response with an error status
    | NoResponse                // sent, but nothing came back
    | SetupError(message: string)  // failed before anything was sent

  datatype Options = Options(queryParams: Option<QueryParams>, body: Option<Json>, headers: map<string, string>)

  /** The request configuration handed to the HTTP client. */
  datatype AxiosConfig = AxiosConfig(verb: Method, url: string, headers: map<string, string>, data: Option<Json>)

  /** The token the gate accepts: present and non-empty. */
  function TokenOf(s: Session): Option<string>
  {
    if s.Session? && s.accessToken.Some? && s.accessToken.value != "" then s.accessToken else None
  }

  const ContentTypeKey: string := "Content-Type"
  const AuthorizationKey: string := "Authorization"

  /** The default headers followed by the caller's, which win on a clash. */
  function HeadersFor(token: string, caller: map<string, string>): (h: map<string, string>)
    ensures h.Keys == {ContentTypeKey, AuthorizationKey} + caller.Keys
    ensures forall k :: k in caller ==> h[k] == caller[k]
    ensures ContentTypeKey !in caller ==> h[ContentTypeKey] == "application/json"
    ensures AuthorizationKey !in caller ==> h[AuthorizationKey] == "Bearer " + token
  {
    map[ContentTypeKey := "application/json", AuthorizationKey := "Bearer " + token] + caller
  }

  /** The configuration `request` builds once a token is in hand: the route's
      method, its URL, the merged headers, and the body only when truthy. */
  function ConfigFor(route: Route, options: Options, token: string, encode: string -> string): (c: AxiosConfig)
    ensures c.verb == EndpointOf(route).verb
    ensures StartsWith(c.url, BaseUrl + EndpointOf(route).path)
    ensures forall k :: k in options.headers ==> k in c.headers && c.headers[k] == options.headers[k]
    ensures AuthorizationKey in c.headers
    ensures AuthorizationKey !in options.headers ==> c.headers[AuthorizationKey] == "Bearer " + token
    ensures c.data.Some? <==> options.body.Some? && Truthy(options.body.value)
    ensures c.data.Some? ==> c.data == options.body
  {
    var e := EndpointOf(route);
    AxiosConfig(
      e.verb,
      BuildUrl(e.path, options.queryParams, encode),
      HeadersFor(token, options.headers),
      if options.body.Some? && Truthy(options.body.value) then options.body else None)
  }

  const NoTokenMessage: string := "No token found, please login again."

  /** What `request` resolves to or rejects with, for a given session and
      HTTP transport. */
  function RequestOutcome(route: Route, options: Options, session: Session,
                          transport: AxiosConfig -> HttpOutcome, encode: string -> string): Result<Json>
  {
    if session.SessionError? then Failure(NormaliseError(Plain(session.message)))
    else if TokenOf(session).None? then Failure(NormaliseError(Plain(NoTokenMessage)))
    else
      match transport(ConfigFor(route, options, TokenOf(session).value, encode))
      case Ok(data) => Success(data)
      case ErrorStatus(status) => Failure(NormaliseError(WithResponse(status)))
      case NoResponse => Failure(NormaliseError(WithRequest))
      case SetupError(m) => Failure(NormaliseError(Plain(m)))
  }

  /** A missing or empty token fails with the authentication message: the
      error thrown inside the try is normalised like any other. */
  lemma MissingTokenFails(route: Route, options: Options, accessToken: Option<string>,
                          transport: AxiosConfig -> HttpOutcome, encode: string -> string)
    requires accessToken.None? || accessToken == Some("")
    ensures RequestOutcome(route, options, Session(accessToken), transport, encode)
      == Failure("API Error: " + NoTokenMessage)
  {
  }

  /** `request` resolves exactly when a token was found and the HTTP call
      succeeded, and then to the response body. */
  lemma SuccessOutcome(route: Route, options: Options, session: Session,
                       transport: AxiosConfig -> HttpOutcome, encode: string -> string, data: Json)
    ensures RequestOutcome(route, options, session, transport, encode) == Success(data) <==>
      TokenOf(session).Some? && transport(ConfigFor(route, options, TokenOf(session).value, encode)) == Ok(data)
  {
  }

  /** Once the request went out, the catch block yields "404" exactly for a
      404 answer. */
  lemma NotFoundFromTransport(outcome: HttpOutcome)
    ensures (match outcome
             case Ok(data) => Success(data)
             case ErrorStatus(status) => Failure(NormaliseError(WithResponse(status)))
             case NoResponse => Failure(NormaliseError(WithRequest))
             case SetupError(m) => Failure(NormaliseError(Plain(m)))) == Failure("404")
      <==> outcome == ErrorStatus(404)
  {
    match outcome
    case Ok(_) =>
    case ErrorStatus(status) => NotFoundMessage(WithResponse(status));
    case NoResponse => NotFoundMessage(WithRequest);
    case SetupError(m) => NotFoundMessage(Plain(m));
  }

  /** `request` rejects with the message "404" exactly when a token was found
      and the server answered the request with status 404. */
  lemma NotFoundOutcome(route: Route, options: Options, session: Session,
                        transport: AxiosConfig -> HttpOutcome, encode: string -> string)
    ensures RequestOutcome(route, options, session, transport, encode) == Failure("404") <==>
      TokenOf(session).Some? && transport(ConfigFor(route, options, TokenOf(session).value, encode)) == ErrorStatus(404)
  {
    if session.SessionError? {
      NotFoundMessage(Plain(session.message));
    } else if TokenOf(session).None? {
      NotFoundMessage(Plain(NoTokenMessage));
    } else {
      var config := ConfigFor(route, options, TokenOf(session).value, encode);
      NotFoundFromTransport(transport(config));
    }
  }

  /** An opaque handle for the callback registered with `setAchievementCheck`. */
  type ObserverId = nat

  /** The `APIService` object: its one mutable field is the achievement
      observer. The ghost logs record every configuration handed to the HTTP
      client and every call made to the observer. */
  class ApiService {
    var checkAchievements: Option<ObserverId>
    ghost var sent: seq<AxiosConfig>
    ghost var notified: seq<(ObserverId, Json)>

    constructor ()
      ensures checkAchievements == None && sent == [] && notified == []
    {
      checkAchievements := None;
      sent := [];
      notified := [];
    }

    method SetAchievementCheck(observer: ObserverId)
      modifies this
      ensures checkAchievements == Some(observer)
      ensures sent == old(sent) && notified == old(notified)
    {
      checkAchievements := Some(observer);
    }

    /** `request(route, options)`: one pass through the pipeline. */
    method Request(route: Route, options: Options, session: Session,
                   transport: AxiosConfig -> HttpOutcome, encode: string -> string) returns (r: Result<Json>)
      modifies this
      ensures r == RequestOutcome(route, options, session, transport, encode)
      ensures checkAchievements == old(checkAchievements)
      // without a usable token nothing is sent and nobody is notified
      ensures TokenOf(session).None? ==> sent == old(sent) && notified == old(notified)
      // with one, exactly one configuration goes out
      ensures TokenOf(session).Some? ==>
        sent == old(sent) + [ConfigFor(route, options, TokenOf(session).value, encode)]
      // the observer, when registered, sees the body of a successful response once
      ensures r.Success? && checkAchievements.Some? ==>
        notified == old(notified) + [(checkAchievements.value, r.value)]
      ensures !(r.Success? && checkAchievements.Some?) ==> notified == old(notified)
    {
      // Step 1: the token gate
      if session.SessionError? {
        return Failure(NormaliseError(Plain(session.message)));
      }
      var token := TokenOf(session);
      if token.None? {
        return Failure(NormaliseError(Plain(NoTokenMessage)));
      }
      // Steps 2 and 3: URL and configuration
      var config := ConfigFor(route, options, token.value, encode);
      // Step 4: the HTTP call
      sent := sent + [config];
      var response := transport(config);
      match response {
        case Ok(data) =>
          // Step 5: the observer
          if checkAchievements.Some? {
            notified := notified + [(checkAchievements.value, data)];
          }
          r := Success(data);
        case ErrorStatus(status) =>
          r := Failure(NormaliseError(WithResponse(status)));
        case NoResponse =>
          r := Failure(NormaliseError(WithRequest));
        case SetupError(m) =>
          r := Failure(NormaliseError(Plain(m)));
      }
    }
  }
}

=== FILE: common.dfy ===
/** Values shared by every part of the model: optional values, results, and the
    dynamically typed JavaScript values (`any`) that responses, achievement
    records and push payloads are made of. */
module Common {

  datatype Option<+T> = None | Some(value: T)

  /** A call that either yields a value or throws an error carrying a message. */
  datatype Result<+T> = Success(value: T) | Failure(message: string)

  /** A JavaScript value as the front end sees it after JSON decoding.
      `undefined` and `null` are both `JNull`: neither has properties and both
      are falsy, which is all the modelled code distinguishes. Numbers are
      modelled as integers. */
  datatype Json =
    | JNull
    | JBool(b: bool)
    | JNum(n: int)
    | JStr(s: string)
    | JArr(items: seq<Json>)
    | JObj(fields: map<string, Json>)

  /** JavaScript truthiness: the test behind `x || d`, `x && y` and `if (x)`. */
  predicate Truthy(j: Json)
  {
    match j
    case JNull => false
    case JBool(b) => b
    case JNum(n) => n != 0
    case JStr(s) => s != ""
    case JArr(_) => true
    case JObj(_) => true
  }

  /** Optional chaining `j?.key`: the property when `j` is an object that has
      it, and undefined otherwise. */
  function Prop(j: Json, key: string): (r: Json)
    ensures j.JObj? && key in j.fields ==> r == j.fields[key]
    ensures !(j.JObj? && key in j.fields) ==> r == JNull
  {
    if j.JObj? && key in j.fields then j.fields[key] else JNull
  }

  /** `x || d`: the first operand when it is truthy, else the second. */
  function Or(x: Json, d: Json): (r: Json)
    ensures Truthy(x) ==> r == x
    ensures !Truthy(x) ==> r == d
  {
    if Truthy(x) then x else d
  }

  /** `s || d` on a string that may be null. */
  function OrText(s: Option<string>, d: string): (r: string)
    ensures s.Some? && s.value != "" ==> r == s.value
    ensures (s.None? || s.value == "") ==> r == d
  {
    if s.Some? && s.value != "" then s.value else d
  }
}

=== FILE: onboarding.dfy ===
/** The onboarding form of src/pages/NewUser.tsx: one details record changed
    one input at a time, and the UPDATE_USER body sent, without validation,
    when the user clicks Complete. */
module Onboarding {
  import opened ApiGateway

  /** What a form field holds: the raw text of an input, or the number that
      `Number(source)` yields, kept by the text it was converted from. */
  datatype FieldValue = Str(s: string) | NumberOf(source: string)

  /** The inputs of the form, by their `name` attribute. */
  datatype Input = Username | FirstName | LastName | Email | Height | Weight

  /** `userDetails`. */
  datatype Details = Details(
    username: FieldValue,
    firstName: FieldValue,
    lastName: FieldValue,
    email: FieldValue,
    height: FieldValue,
    weight: FieldValue)

  /** The UPDATE_USER body built in `sendData`. */
  datatype NewUserBody = NewUserBody(
    nickname: FieldValue,
    firstName: FieldValue,
    lastName: FieldValue,
    email: FieldValue,
    height: FieldValue)

  /** The initial details: empty strings, and the number 0 for height and
      weight. */
  function InitialDetails(): (d: Details)
    ensures forall i :: i != Height && i != Weight ==> Get(d, i) == Str("")
    ensures d.height == NumberOf("0") && d.weight == NumberOf("0")
  {
    Details(Str(""), Str(""), Str(""), Str(""), NumberOf("0"), NumberOf("0"))
  }

  /** `userDetails[name]`. */
  function Get(d: Details, name: Input): FieldValue
  {
    match name
    case Username => d.username
    case FirstName => d.firstName
    case LastName => d.lastName
    case Email => d.email
    case Height => d.height
    case Weight => d.weight
  }

  /** `{ ...d, [name]: value }`. */
  function Set(d: Details, name: Input, value: FieldValue): Details
  {
    match name
    case Username => d.(username := value)
    case FirstName => d.(firstName := value)
    case LastName => d.(lastName := value)
    case Email => d.(email := value)
    case Height => d.(height := value)
    case Weight => d.(weight := value)
  }

  /** The value `handleChange` stores for an input's text: only `height` is
      converted to a number. */
  function Converted(name: Input, text: string): FieldValue
  {
    if name == Height then NumberOf(text) else Str(text)
  }

  /** `Number(v)`: a number stays itself, a text becomes its number. */
  function ToNumber(v: FieldValue): (r: FieldValue)
    ensures r.NumberOf?
    ensures r.source == (if v.Str? then v.s else v.source)
  {
    match v
    case Str(s) => NumberOf(s)
    case NumberOf(t) => NumberOf(t)
  }

  /** The request body for a details record. */
  function BodyOf(d: Details): NewUserBody
  {
    NewUserBody(d.username, d.firstName, d.lastName, d.email, ToNumber(d.height))
  }

  /** A change touches only the field named by its input; that field takes
      the text, as a number for `height` and as the raw string for every
      other field, `weight` included. */
  lemma ChangeTouchesOneField(d: Details, name: Input, text: string, other: Input)
    ensures Get(Set(d, name, Converted(name, text)), name) ==
      (if name == Height then NumberOf(text) else Str(text))
    ensures other != name ==> Get(Set(d, name, Converted(name, text)), other) == Get(d, other)
  {
  }

  /** The body renames `username` to `nickname`, copies the names and the
      email, sends `height` as a number, and leaves `weight` out: no change
      of `weight` ever shows in it. */
  lemma BodyProjection(d: Details, w: FieldValue)
    ensures BodyOf(d).nickname == Get(d, Username)
    ensures BodyOf(d).firstName == Get(d, FirstName) && BodyOf(d).lastName == Get(d, LastName)
    ensures BodyOf(d).email == Get(d, Email)
    ensures BodyOf(d).height.NumberOf?
    ensures BodyOf(d).height == ToNumber(Get(d, Height))
    ensures BodyOf(Set(d, Weight, w)) == BodyOf(d)
  {
  }

  /** The page's state cell. */
  class NewUserPage {
    var userDetails: Details

    constructor ()
      ensures userDetails == InitialDetails()
    {
      userDetails := InitialDetails();
    }

    /** `handleChange` for a change event of the input `name`. */
    method HandleChange(name: Input, text: string)
      modifies this
      ensures userDetails == Set(old(userDetails), name, Converted(name, text))
    {
      var value := if name == Height then NumberOf(text) else Str(text);
      userDetails := Set(userDetails, name, value);
    }

    /** Clicking Complete: whatever the details hold, the UPDATE_USER request
        is issued with their body and the page navigates to "/". */
    method Complete() returns (route: Route, body: NewUserBody, target: string)
      ensures route == UpdateUser && EndpointOf(route) == Endpoint("/user-profile", POST)
      ensures body.nickname == userDetails.username && body.email == userDetails.email
      ensures body == BodyOf(userDetails)
      ensures target == "/"
    {
      route := UpdateUser;
      body := NewUserBody(userDetails.username, userDetails.firstName, userDetails.lastName,
                          userDetails.email, ToNumber(userDetails.height));
      target := "/";
    }
  }
}

=== FILE: profile_page.dfy ===
/** The editable profile of src/pages/Profile.tsx: the form values loaded
    from the user record, the three validators that set their error
    messages, and `handleSave`, which runs all three validators and, only
    when all pass, updates the user record and sends the UPDATE_USER body. */
module ProfilePage {
  import opened Common
  import opened UserSession
  import opened ProfileValidation
  import ApiGateway

  const EmailErrorMessage: string := "Invalid email format."
  const PhoneErrorMessage: string := "Invalid phone number format."
  const HeightErrorMessage: string := "Invalid height format. Numeric input to one decimal place allowed."
  const DefaultPicture: string := "https://www.google.com"

  /** The editable values, `None` standing for `null`. */
  datatype FormValues = FormValues(
    username: Option<string>,
    firstName: Option<string>,
    lastName: Option<string>,
    email: Option<string>,
    phone: Option<string>,
    birthDate: Option<string>,
    gender: Option<string>,
    height: Option<string>)

  /** The height sent to the server: 0 for an empty height, otherwise
      `parseFloat` of its text, kept by that text. */
  datatype HeightNumber = Zero | ParsedFrom(text: string)

  /** `updatedUserData`, the UPDATE_USER body. */
  datatype ProfileBody = ProfileBody(
    nickname: string,
    userProfilePictureUrl: string,
    email: string,
    phone: string,
    birthdate: string,
    gender: bool,
    height: HeightNumber,
    firstName: string,
    lastName: string)

  /** The values the page starts from, read off the user record; the
      boolean gender is shown as "Male" or "Female". */
  function InitialValues(u: User): (v: FormValues)
    ensures v.username == Some(u.nickname) && v.email == Some(u.email) && v.phone == Some(u.phone)
    ensures v.firstName == Some(u.firstName) && v.lastName == Some(u.lastName)
    ensures v.birthDate == Some(u.birthdate) && v.height == Some(u.height)
    ensures v.gender == Some("Male") <==> u.gender
    ensures v.gender == Some("Female") <==> !u.gender
  {
    FormValues(Some(u.nickname), Some(u.firstName), Some(u.lastName), Some(u.email), Some(u.phone),
               Some(u.birthdate), Some(if u.gender then "Male" else "Female"), Some(u.height))
  }

  /** The picture shown before any edit. */
  function InitialPicture(u: User): (p: string)
    ensures u.userProfilePictureUrl != "" ==> p == u.userProfilePictureUrl
    ensures u.userProfilePictureUrl == "" ==> p == "https://www.google.com"
  {
    OrText(Some(u.userProfilePictureUrl), DefaultPicture)
  }

  /** Whether the three validators all pass on the values, each given its
      field or the empty string for `null`. */
  predicate SaveAllowed(v: FormValues)
  {
    && EmailValid(OrText(v.email, ""))
    && !PhoneVerdictOf(OrText(v.phone, "")).Rejected?
    && HeightValid(OrText(v.height, ""))
  }

  function BodyOf(v: FormValues, pictureUrl: string): ProfileBody
  {
    ProfileBody(
      OrText(v.username, ""),
      OrText(Some(pictureUrl), ""),
      OrText(v.email, ""),
      OrText(v.phone, ""),
      OrText(v.birthDate, ""),
      v.gender == Some("Male"),
      if OrText(v.height, "") == "" then Zero else ParsedFrom(v.height.value),
      OrText(v.firstName, ""),
      OrText(v.lastName, ""))
  }

  /** The argument of `updateUser`: the body with the height replaced by its
      text, "0" when empty. */
  function ContextUpdate(v: FormValues, pictureUrl: string): UserUpdate
  {
    var b := BodyOf(v, pictureUrl);
    UserUpdate(Some(b.userProfilePictureUrl), Some(b.nickname), Some(b.firstName), Some(b.lastName),
               Some(b.email), Some(b.phone), Some(b.birthdate), Some(b.gender), Some(OrText(v.height, "0")))
  }

  /** The body sends every text field as it is, `null` as the empty string;
      the gender is true exactly for "Male"; the height is 0 exactly when it
      is null or empty. */
  lemma BodyFields(v: FormValues, pictureUrl: string)
    ensures var b := BodyOf(v, pictureUrl);
      && (v.username.Some? ==> b.nickname == v.username.value)
      && (v.username.None? ==> b.nickname == "")
      && (v.firstName.Some? ==> b.firstName == v.firstName.value)
      && (v.firstName.None? ==> b.firstName == "")
      && (v.lastName.Some? ==> b.lastName == v.lastName.value)
      && (v.lastName.None? ==> b.lastName == "")
      && (v.email.Some? ==> b.email == v.email.value)
      && (v.email.None? ==> b.email == "")
      && (v.phone.Some? ==> b.phone == v.phone.value)
      && (v.phone.None? ==> b.phone == "")
      && (v.birthDate.Some? ==> b.birthdate == v.birthDate.value)
      && (v.birthDate.None? ==> b.birthdate == "")
      && b.userProfilePictureUrl == pictureUrl
      && (b.gender <==> v.gender == Some("Male"))
      && (b.height == Zero <==> v.height.None? || v.height == Some(""))
      && (b.height.ParsedFrom? ==> Some(b.height.text) == v.height)
  {
  }

  /** The record after a save: PK and weight are kept, every other field is
      replaced by the body's, and the height by its text or "0". */
  lemma SavedRecord(u: User, v: FormValues, pictureUrl: string)
    ensures var r := Merge(u, ContextUpdate(v, pictureUrl));
      && r.pk == u.pk && r.weight == u.weight
      && r.nickname == BodyOf(v, pictureUrl).nickname && r.email == BodyOf(v, pictureUrl).email
      && r.phone == BodyOf(v, pictureUrl).phone && r.userProfilePictureUrl == pictureUrl
      && r.firstName == BodyOf(v, pictureUrl).firstName && r.lastName == BodyOf(v, pictureUrl).lastName
      && r.birthdate == BodyOf(v, pictureUrl).birthdate
      && r.gender == (v.gender == Some("Male"))
      && (v.height.None? || v.height == Some("") ==> r.height == "0")
      && (v.height.Some? && v.height.value != "" ==> r.height == v.height.value)
  {
    MergeKeepsIdentityAndWeight(u, ContextUpdate(v, pictureUrl));
    MergeByField(u, ContextUpdate(v, pictureUrl), Nickname);
    MergeByField(u, ContextUpdate(v, pictureUrl), Email);
    MergeByField(u, ContextUpdate(v, pictureUrl), Phone);
    MergeByField(u, ContextUpdate(v, pictureUrl), FirstName);
    MergeByField(u, ContextUpdate(v, pictureUrl), LastName);
    MergeByField(u, ContextUpdate(v, pictureUrl), Birthdate);
    MergeByField(u, ContextUpdate(v, pictureUrl), UserProfilePictureUrl);
    MergeByField(u, ContextUpdate(v, pictureUrl), Gender);
    MergeByField(u, ContextUpdate(v, pictureUrl), Height);
  }

  /** Saving the values and the picture loaded from a record, unedited, gives
      the record back, except that an empty height becomes "0". */
  lemma UneditedSaveKeepsRecord(u: User)
    ensures var r := Merge(u, ContextUpdate(InitialValues(u), u.userProfilePictureUrl));
      r == u.(height := if u.height == "" then "0" else u.height)
    ensures u.height != "" ==> Merge(u, ContextUpdate(InitialValues(u), u.userProfilePictureUrl)) == u
  {
  }

  /** When the record changes after a save, the form is loaded again from the
      merged record: it shows the phone the body carried, which is the phone
      as typed, and the picture that was sent. */
  lemma ReloadAfterSave(u: User, v: FormValues, pictureUrl: string)
    ensures var w := InitialValues(Merge(u, ContextUpdate(v, pictureUrl)));
      && w.phone == Some(BodyOf(v, pictureUrl).phone)
      && w.email == Some(BodyOf(v, pictureUrl).email)
      && (v.height.Some? && v.height.value != "" ==> w.height == v.height)
    ensures Merge(u, ContextUpdate(v, pictureUrl)).userProfilePictureUrl == pictureUrl
  {
    SavedRecord(u, v, pictureUrl);
  }

  /** The page. `hasNewImage` stands for a selected, not yet uploaded file. */
  class ProfileForm {
    var values: FormValues
    var profilePicture: string
    var hasNewImage: bool
    var isEditing: bool
    var emailError: Option<string>
    var phoneError: Option<string>
    var heightError: Option<string>

    /** Mounting the page: the first render takes the `useState`
        initialisers, and the `[user]` effect, which runs after it, loads the
        record again, so the picture default is replaced by the record's own
        URL before any handler can run. */
    constructor (u: User)
      ensures values == InitialValues(u) && profilePicture == u.userProfilePictureUrl
      ensures !hasNewImage && !isEditing
      ensures emailError.None? && phoneError.None? && heightError.None?
    {
      values := InitialValues(u);
      profilePicture := InitialPicture(u);
      hasNewImage := false;
      isEditing := false;
      emailError := None;
      phoneError := None;
      heightError := None;
      new;
      FetchUserData(u);
    }

    /** `fetchUserData`, run by the `[user]` effect whenever the record
        changes: the values and the picture are loaded from the record, with
        no default for an empty picture. */
    method FetchUserData(u: User)
      modifies this
      ensures values == InitialValues(u) && profilePicture == u.userProfilePictureUrl
      ensures hasNewImage == old(hasNewImage) && isEditing == old(isEditing)
      ensures emailError == old(emailError) && phoneError == old(phoneError) && heightError == old(heightError)
    {
      profilePicture := u.userProfilePictureUrl;
      values := FormValues(Some(u.nickname), Some(u.firstName), Some(u.lastName), Some(u.email), Some(u.phone),
                           Some(u.birthdate), Some(if u.gender then "Male" else "Female"), Some(u.height));
    }

    /** `handleCancel`: editing ends and every edit is dropped by loading the
        session's record again. */
    method HandleCancel(session: UserProvider)
      modifies this
      ensures !isEditing
      ensures values == InitialValues(session.user) && profilePicture == session.user.userProfilePictureUrl
      ensures hasNewImage == old(hasNewImage)
      ensures emailError == old(emailError) && phoneError == old(phoneError) && heightError == old(heightError)
    {
      isEditing := false;
      FetchUserData(session.user);
    }

    /** `validateEmail`: the result is whether the value is a valid email,
        and the email error is set or cleared to match. */
    method ValidateEmail(value: string) returns (ok: bool)
      modifies this
      ensures ok <==> EmailValid(value)
      ensures emailError == (if ok then None else Some(EmailErrorMessage))
      ensures values == old(values) && profilePicture == old(profilePicture) && hasNewImage == old(hasNewImage)
      ensures isEditing == old(isEditing) && phoneError == old(phoneError) && heightError == old(heightError)
    {
      if !EmailValid(value) {
        emailError := Some(EmailErrorMessage);
        return false;
      }
      emailError := None;
      return true;
    }

    /** `validatePhone`: an accepted value is stored, formatted when it has
        ten digits-or-plus characters; a rejected one sets the error and
        leaves the stored phone alone. */
    method ValidatePhone(value: string) returns (ok: bool)
      modifies this
      ensures ok <==> !PhoneVerdictOf(value).Rejected?
      ensures ok ==> values == old(values).(phone := Some(PhoneVerdictOf(value).phone))
      ensures !ok ==> values == old(values)
      ensures phoneError == (if ok then None else Some(PhoneErrorMessage))
      ensures profilePicture == old(profilePicture) && hasNewImage == old(hasNewImage)
      ensures isEditing == old(isEditing) && emailError == old(emailError) && heightError == old(heightError)
    {
      var cleanedValue := CleanPhone(value);
      if |cleanedValue| == 10 {
        values := values.(phone := Some(FormatPhone(cleanedValue)));
        phoneError := None;
        return true;
      } else if Matches(PhonePattern, value) {
        values := values.(phone := Some(value));
        phoneError := None;
        return true;
      } else {
        phoneError := Some(PhoneErrorMessage);
        return false;
      }
    }

    /** `validateHeight`: the result is whether the value is a valid height,
        and the height error is set or cleared to match. */
    method ValidateHeight(value: string) returns (ok: bool)
      modifies this
      ensures ok <==> HeightValid(value)
      ensures heightError == (if ok then None else Some(HeightErrorMessage))
      ensures values == old(values) && profilePicture == old(profilePicture) && hasNewImage == old(hasNewImage)
      ensures isEditing == old(isEditing) && emailError == old(emailError) && phoneError == old(phoneError)
    {
      if !Matches(HeightPattern, value) || value == "" {
        heightError := Some(HeightErrorMessage);
        return false;
      }
      heightError := None;
      return true;
    }

    /** `handleSave`. The handler reads the values as they were when it was
        created, so the body carries the phone as typed even when
        `validatePhone` has just stored its formatted form, and once the
        record is updated the `[user]` effect loads that typed phone back into
        the form. `upload` is what
        uploading a selected image yields; `apiSucceeds` whether the
        UPDATE_USER request resolved. The result is the route and body sent, if
        any. */
    method HandleSave(session: UserProvider, upload: Result<string>, apiSucceeds: bool)
      returns (sent: Option<(ApiGateway.Route, ProfileBody)>)
      modifies this, session
      // all three validators run, whatever the earlier ones decided
      ensures emailError == (if EmailValid(OrText(old(values).email, "")) then None else Some(EmailErrorMessage))
      ensures phoneError ==
        (if PhoneVerdictOf(OrText(old(values).phone, "")).Rejected? then Some(PhoneErrorMessage) else None)
      ensures heightError == (if HeightValid(OrText(old(values).height, "")) then None else Some(HeightErrorMessage))
      // an invalid form, or a failed upload, sends nothing and changes no
      // record; the form keeps what `validatePhone` stored
      ensures !SaveAllowed(old(values)) || (old(hasNewImage) && upload.Failure?) ==>
        && sent.None? && session.user == old(session.user) && isEditing == old(isEditing)
        && hasNewImage == old(hasNewImage) && profilePicture == old(profilePicture)
        && values ==
          (if PhoneVerdictOf(OrText(old(values).phone, "")).Rejected? then old(values)
           else old(values).(phone := Some(PhoneVerdictOf(OrText(old(values).phone, "")).phone)))
      // otherwise the record is merged and the body sent, from the old values,
      // and the form is loaded again from the merged record
      ensures SaveAllowed(old(values)) && !(old(hasNewImage) && upload.Failure?) ==>
        var picture := if old(hasNewImage) then upload.value else old(profilePicture);
        && sent == Some((ApiGateway.UpdateUser, BodyOf(old(values), picture)))
        && session.user == Merge(old(session.user), ContextUpdate(old(values), picture))
        && values == InitialValues(session.user) && profilePicture == picture
        && !hasNewImage
        && isEditing == (if apiSucceeds then false else old(isEditing))
    {
      var snapshot := values;
      var isValid := true;
      var ok := ValidateEmail(OrText(snapshot.email, ""));
      if !ok { isValid := false; }
      ok := ValidatePhone(OrText(snapshot.phone, ""));
      if !ok { isValid := false; }
      ok := ValidateHeight(OrText(snapshot.height, ""));
      if !ok { isValid := false; }

      sent := None;
      if isValid {
        var uploadedImageUrl := profilePicture;
        if hasNewImage {
          if upload.Failure? {
            // the catch block only reports the failure
            return;
          }
          uploadedImageUrl := upload.value;
        }
        var body := BodyOf(snapshot, uploadedImageUrl);
        session.UpdateUser(ContextUpdate(snapshot, uploadedImageUrl));
        // the new record re-runs the `[user]` effect while the request is awaited
        FetchUserData(session.user);
        hasNewImage := false;
        sent := Some((ApiGateway.UpdateUser, body));
        if apiSucceeds {
          isEditing := false;
        }
      }
    }
  }
}

=== FILE: profile_validation.dfy ===
/** The pure rules of src/pages/Profile.tsx: base64url normalisation and
    decoding of the push key, and the email, phone and height formats. The
    regular expressions are written as an explicit matcher over a pattern of
    character-class atoms, and the email pattern as an explicit predicate. */
module ProfileValidation {
  import opened Common

  // ---------------------------------------------------------------------------
  // base64url to bytes
  // ---------------------------------------------------------------------------

  /** The number of '=' appended to a string of length n. */
  function PaddingLength(n: nat): nat
  {
    (4 - n % 4) % 4
  }

  /** The padding is the least count of '=' that makes the length a multiple
      of four, hence at most three. */
  lemma PaddingLaws(n: nat)
    ensures PaddingLength(n) <= 3
    ensures Aligned(n + PaddingLength(n))
    ensures forall m :: n <= m < n + PaddingLength(n) ==> !Aligned(m)
  {
  }

  predicate Aligned(m: int)
  {
    m % 4 == 0
  }

  function Repeat(c: char, n: nat): (r: string)
    ensures |r| == n && forall i :: 0 <= i < n ==> r[i] == c
  {
    if n == 0 then [] else Repeat(c, n - 1) + [c]
  }

  /** `s.replace(/from/g, to)` for single characters. */
  function ReplaceAll(s: string, from: char, to: char): (r: string)
    ensures |r| == |s|
    ensures forall i :: 0 <= i < |s| ==> r[i] == (if s[i] == from then to else s[i])
  {
    if s == [] then [] else ReplaceAll(s[..|s| - 1], from, to) + [if s[|s| - 1] == from then to else s[|s| - 1]]
  }

  /** The string handed to `atob`. */
  function NormaliseBase64(s: string): string
  {
    ReplaceAll(ReplaceAll(s + Repeat('=', PaddingLength(|s|)), '-', '+'), '_', '/')
  }

  /** The base64url alphabet's two extra characters mapped to standard
      base64; every other character is kept. */
  function Substitute(c: char): char
  {
    if c == '-' then '+' else if c == '_' then '/' else c
  }

  /** Normalisation keeps every character but '-' and '_', turns those into
      '+' and '/', and pads with '=' to a multiple of four. */
  lemma NormaliseBase64Shape(s: string)
    ensures |NormaliseBase64(s)| == |s| + PaddingLength(|s|)
    ensures Aligned(|NormaliseBase64(s)|)
    ensures forall i :: 0 <= i < |s| ==> NormaliseBase64(s)[i] == Substitute(s[i])
    ensures forall i :: |s| <= i < |NormaliseBase64(s)| ==> NormaliseBase64(s)[i] == '='
    ensures '-' !in NormaliseBase64(s) && '_' !in NormaliseBase64(s)
  {
    PaddingLaws(|s|);
  }

  /** `urlBase64ToUint8Array(s)`, with `window.atob` given as `atob` (None
      where it throws). Each byte is the character code at its position,
      reduced to eight bits as a `Uint8Array` stores it. */
  method UrlBase64ToBytes(s: string, atob: string -> Option<string>) returns (output: Option<array<int>>)
    ensures atob(NormaliseBase64(s)).None? ==> output.None?
    ensures atob(NormaliseBase64(s)).Some? ==>
      var raw := atob(NormaliseBase64(s)).value;
      && output.Some?
      && output.value.Length == |raw|
      && forall i :: 0 <= i < |raw| ==> output.value[i] == (raw[i] as int) % 256 && 0 <= output.value[i] < 256
  {
    var decoded := atob(NormaliseBase64(s));
    if decoded.None? {
      return None;
    }
    var rawData := decoded.value;
    var outputArray := new int[|rawData|];
    var i := 0;
    while i < |rawData|
      invariant 0 <= i <= |rawData|
      invariant forall j :: 0 <= j < i ==> outputArray[j] == (rawData[j] as int) % 256
    {
      outputArray[i] := (rawData[i] as int) % 256;
      i := i + 1;
    }
    return Some(outputArray);
  }

  // ---------------------------------------------------------------------------
  // A matcher for anchored patterns of single-character atoms
  // ---------------------------------------------------------------------------

  /** JavaScript's `\s`. */
  predicate IsSpace(c: char)
  {
    c == ' ' || c == '\t' || c == '\n' || c == '\r' || c == '\U{000B}' || c == '\U{000C}'
    || c == '\U{00A0}' || c == '\U{1680}' || ('\U{2000}' <= c <= '\U{200A}')
    || c == '\U{2028}' || c == '\U{2029}' || c == '\U{202F}' || c == '\U{205F}'
    || c == '\U{3000}' || c == '\U{FEFF}'
  }

  /** `\d`: ASCII digits only. */
  predicate IsDigit(c: char)
  {
    '0' <= c <= '9'
  }

  datatype CharClass = Exactly(c: char) | Digit | Space | PhoneSeparator

  predicate InClass(k: CharClass, c: char)
  {
    match k
    case Exactly(x) => c == x
    case Digit => IsDigit(c)
    case Space => IsSpace(c)
    case PhoneSeparator => c == '-' || c == '.' || IsSpace(c)
  }

  /** `k`, `k?` and `k*`. */
  datatype Atom = One(k: CharClass) | Optional(k: CharClass) | Many(k: CharClass)

  /** Whether the whole of `s` matches the pattern (`^...$`), trying every way
      of taking or skipping an optional atom, as the regex engine backtracks. */
  predicate Matches(pattern: seq<Atom>, s: string)
    decreases |pattern|, |s|
  {
    if pattern == [] then s == []
    else
      match pattern[0]
      case One(k) => |s| > 0 && InClass(k, s[0]) && Matches(pattern[1..], s[1..])
      case Optional(k) =>
        (|s| > 0 && InClass(k, s[0]) && Matches(pattern[1..], s[1..])) || Matches(pattern[1..], s)
      case Many(k) =>
        Matches(pattern[1..], s) || (|s| > 0 && InClass(k, s[0]) && Matches(pattern, s[1..]))
  }

  /** A pattern none of whose atoms admits `x` matches no string holding `x`. */
  lemma {:induction false} MatchExcludes(pattern: seq<Atom>, s: string, x: char)
    requires forall i :: 0 <= i < |pattern| ==> !InClass(pattern[i].k, x)
    requires Matches(pattern, s)
    ensures x !in s
    decreases |pattern|, |s|
  {
    if pattern != [] {
      match pattern[0]
      case One(k) =>
        MatchExcludes(pattern[1..], s[1..], x);
        assert s == [s[0]] + s[1..];
      case Optional(k) =>
        if |s| > 0 && InClass(k, s[0]) && Matches(pattern[1..], s[1..]) {
          MatchExcludes(pattern[1..], s[1..], x);
          assert s == [s[0]] + s[1..];
        } else {
          MatchExcludes(pattern[1..], s, x);
        }
      case Many(k) =>
        if Matches(pattern[1..], s) {
          MatchExcludes(pattern[1..], s, x);
        } else {
          MatchExcludes(pattern, s[1..], x);
          assert s == [s[0]] + s[1..];
        }
    }
  }

  /** A string matches when each of its characters is taken by the atom in
      the same position and no atom repeats. */
  lemma {:induction false} MatchEachAtomOnce(pattern: seq<Atom>, s: string)
    requires |pattern| == |s|
    requires forall i :: 0 <= i < |s| ==> !pattern[i].Many? && InClass(pattern[i].k, s[i])
    ensures Matches(pattern, s)
    decreases |pattern|
  {
    if pattern != [] {
      MatchEachAtomOnce(pattern[1..], s[1..]);
    }
  }

  // ---------------------------------------------------------------------------
  // Phone
  // ---------------------------------------------------------------------------

  /** `^\+?1?\s?\(?[0-9]{3}\)?[-.\s]?[0-9]{3}[-.\s]?[0-9]{4}$`. */
  const PhonePattern: seq<Atom> := [
    Optional(Exactly('+')), Optional(Exactly('1')), Optional(Space), Optional(Exactly('(')),
    One(Digit), One(Digit), One(Digit),
    Optional(Exactly(')')), Optional(PhoneSeparator),
    One(Digit), One(Digit), One(Digit),
    Optional(PhoneSeparator),
    One(Digit), One(Digit), One(Digit), One(Digit)]

  /** `value.replace(/[^\d+]/g, "")`: the digits and '+' signs, in order. */
  function CleanPhone(value: string): (r: string)
    ensures |r| <= |value|
    ensures forall i :: 0 <= i < |r| ==> IsDigit(r[i]) || r[i] == '+'
  {
    if value == [] then []
    else
      var c := value[|value| - 1];
      CleanPhone(value[..|value| - 1]) + (if IsDigit(c) || c == '+' then [c] else [])
  }

  /** `+1 (XXX) XXX-XXXX` from a ten-character cleaned value. */
  function FormatPhone(c: string): (r: string)
    requires |c| == 10
  {
    "+1 (" + c[..3] + ") " + c[3..6] + "-" + c[6..]
  }

  /** What `validatePhone` decides: store a formatted number, keep the raw
      value, or reject. */
  datatype PhoneVerdict = Formatted(phone: string) | Kept(phone: string) | Rejected

  function PhoneVerdictOf(value: string): PhoneVerdict
  {
    var cleaned := CleanPhone(value);
    if |cleaned| == 10 then Formatted(FormatPhone(cleaned))
    else if Matches(PhonePattern, value) then Kept(value)
    else Rejected
  }

  /** The cases of `validatePhone`: exactly ten digits-or-plus characters are
      formatted; otherwise the raw value is kept exactly when it matches the
      pattern, and rejected when it does not. */
  lemma PhoneVerdictCases(value: string)
    ensures PhoneVerdictOf(value).Formatted? <==> |CleanPhone(value)| == 10
    ensures PhoneVerdictOf(value).Kept? <==> |CleanPhone(value)| != 10 && Matches(PhonePattern, value)
    ensures PhoneVerdictOf(value).Kept? ==> PhoneVerdictOf(value).phone == value
    ensures PhoneVerdictOf(value).Rejected? <==> |CleanPhone(value)| != 10 && !Matches(PhonePattern, value)
  {
  }

  /** Ten digits are formatted into a number the phone pattern accepts, with
      the digits in their original order. */
  lemma FormattedDigitsMatch(cleaned: string)
    requires |cleaned| == 10 && forall i :: 0 <= i < 10 ==> IsDigit(cleaned[i])
    ensures Matches(PhonePattern, FormatPhone(cleaned))
    ensures FormatPhone(cleaned)[4..7] == cleaned[..3]
    ensures FormatPhone(cleaned)[9..12] == cleaned[3..6]
    ensures FormatPhone(cleaned)[13..] == cleaned[6..]
  {
    var f := FormatPhone(cleaned);
    assert |f| == 17;
    forall i | 0 <= i < 17
      ensures !PhonePattern[i].Many? && InClass(PhonePattern[i].k, f[i])
    {
      if 4 <= i < 7 {
        assert f[i] == cleaned[i - 4];
      } else if 9 <= i < 12 {
        assert f[i] == cleaned[i - 6];
      } else if 13 <= i {
        assert f[i] == cleaned[i - 7];
      }
    }
    MatchEachAtomOnce(PhonePattern, f);
  }

  /** When only a pattern's first atom, an optional `x`, admits `x`, a
      matching string holds `x` at most at its start. */
  lemma OptionalFirstOnly(pattern: seq<Atom>, s: string, x: char)
    requires pattern != [] && pattern[0] == Optional(Exactly(x))
    requires forall i :: 1 <= i < |pattern| ==> !InClass(pattern[i].k, x)
    requires Matches(pattern, s)
    ensures forall j :: 1 <= j < |s| ==> s[j] != x
  {
    var rest := pattern[1..];
    assert forall i :: 0 <= i < |rest| ==> rest[i] == pattern[i + 1];
    if |s| > 0 && s[0] == x && Matches(rest, s[1..]) {
      MatchExcludes(rest, s[1..], x);
      assert forall j :: 1 <= j < |s| ==> s[j] == s[1..][j - 1];
    } else {
      MatchExcludes(rest, s, x);
    }
  }

  /** A number the phone pattern accepts has no '+' after its first
      character. */
  lemma PhonePatternPlusOnlyFirst(s: string)
    requires Matches(PhonePattern, s)
    ensures forall j :: 1 <= j < |s| ==> s[j] != '+'
  {
    PhoneAtomsAfterFirst();
    OptionalFirstOnly(PhonePattern, s, '+');
  }

  lemma PhoneAtomsAfterFirst()
    ensures PhonePattern != [] && PhonePattern[0] == Optional(Exactly('+'))
    ensures forall i :: 1 <= i < |PhonePattern| ==> !InClass(PhonePattern[i].k, '+')
  {
    forall i | 1 <= i < |PhonePattern| ensures !InClass(PhonePattern[i].k, '+') {
      var k := PhonePattern[i].k;
      assert k == Exactly('1') || k == Space || k == Exactly('(') || k == Exactly(')') || k == Digit || k == PhoneSeparator;
    }
  }

  /** Cleaning keeps a value made only of digits and '+' as it is, so
      cleaning twice is cleaning once. */
  lemma {:induction false} CleanKeepsDigitsAndPlus(value: string)
    requires forall i :: 0 <= i < |value| ==> IsDigit(value[i]) || value[i] == '+'
    ensures CleanPhone(value) == value
  {
    if value != [] {
      CleanKeepsDigitsAndPlus(value[..|value| - 1]);
    }
  }

  /** Cleaning a single character keeps it exactly when it is a digit or
      '+'. */
  lemma CleanOneChar(c: char)
    ensures IsDigit(c) || c == '+' ==> CleanPhone([c]) == [c]
    ensures !IsDigit(c) && c != '+' ==> CleanPhone([c]) == []
  {
    assert [c][..0] == [];
  }

  /** Cleaning works piece by piece: the cleaned concatenation is the
      concatenation of the cleaned pieces. With `CleanOneChar`, every digit and
      '+' of the input is kept, in order, and every other character dropped. */
  lemma {:induction false} CleanConcat(a: string, b: string)
    ensures CleanPhone(a + b) == CleanPhone(a) + CleanPhone(b)
  {
    if b == [] {
      assert a + b == a;
    } else {
      var c := b[|b| - 1];
      var b' := b[..|b| - 1];
      assert (a + b)[..|a + b| - 1] == a + b';
      assert (a + b)[|a + b| - 1] == c;
      CleanConcat(a, b');
    }
  }

  /** A digit group followed by a separator cleans to the group. */
  lemma CleanGroupThenSeparator(g: string, x: char)
    requires forall i :: 0 <= i < |g| ==> IsDigit(g[i])
    requires !IsDigit(x) && x != '+'
    ensures CleanPhone(g + [x]) == g
  {
    CleanConcat(g, [x]);
    CleanOneChar(x);
    CleanKeepsDigitsAndPlus(g);
  }

  /** The two groupings of five pieces and of three pieces agree. */
  lemma Regroup(g1: string, x: char, g2: string, y: char, g3: string)
    ensures g1 + [x] + g2 + [y] + g3 == (g1 + [x]) + ((g2 + [y]) + g3)
    ensures g1 + (g2 + g3) == g1 + g2 + g3
  {
  }

  /** Digit groups joined by separators clean to the digits alone. */
  lemma CleanDropsSeparators(g1: string, x: char, g2: string, y: char, g3: string)
    requires forall i :: 0 <= i < |g1| ==> IsDigit(g1[i])
    requires forall i :: 0 <= i < |g2| ==> IsDigit(g2[i])
    requires forall i :: 0 <= i < |g3| ==> IsDigit(g3[i])
    requires !IsDigit(x) && x != '+' && !IsDigit(y) && y != '+'
    ensures CleanPhone(g1 + [x] + g2 + [y] + g3) == g1 + g2 + g3
  {
    var p1, p2 := g1 + [x], g2 + [y];
    Regroup(g1, x, g2, y, g3);
    calc {
      CleanPhone(p1 + (p2 + g3));
      { CleanConcat(p1, p2 + g3); }
      CleanPhone(p1) + CleanPhone(p2 + g3);
      { CleanConcat(p2, g3); }
      CleanPhone(p1) + (CleanPhone(p2) + CleanPhone(g3));
      { CleanGroupThenSeparator(g1, x); CleanGroupThenSeparator(g2, y); CleanKeepsDigitsAndPlus(g3); }
      g1 + (g2 + g3);
    }
  }

  /** A separated ten-digit number is cleaned to its digits and formatted:
      "123-456-7890" is stored as "+1 (123) 456-7890". */
  lemma SeparatedNumberFormatted()
    ensures CleanPhone("123-456-7890") == "1234567890"
    ensures PhoneVerdictOf("123-456-7890") == Formatted("+1 (123) 456-7890")
  {
    var c := "1234567890";
    assert "123-456-7890" == c[..3] + ['-'] + c[3..6] + ['-'] + c[6..];
    assert c == c[..3] + c[3..6] + c[6..];
    CleanDropsSeparators(c[..3], '-', c[3..6], '-', c[6..]);
    assert FormatPhone(c) == "+1 (123) 456-7890" by {
      assert c[..3] == "123" && c[3..6] == "456" && c[6..] == "7890";
    }
  }

  lemma CleanIdempotent(value: string)
    ensures CleanPhone(CleanPhone(value)) == CleanPhone(value)
  {
    CleanKeepsDigitsAndPlus(CleanPhone(value));
  }

  /** A '+' counts toward the ten characters: "+123456789" is formatted into
      "+1 (+12) 345-6789". */
  lemma PlusCountsTowardTen()
    ensures CleanPhone("+123456789") == "+123456789"
    ensures PhoneVerdictOf("+123456789") == Formatted("+1 (+12) 345-6789")
  {
    var v := "+123456789";
    CleanKeepsDigitsAndPlus(v);
    assert |CleanPhone(v)| == 10;
    assert FormatPhone(v) == "+1 (+12) 345-6789" by {
      assert v[..3] == "+12" && v[3..6] == "345" && v[6..] == "6789";
    }
  }

  /** The value formatted from "+123456789" is one the phone pattern itself
      rejects. */
  lemma FormattedPlusRejected()
    ensures !Matches(PhonePattern, "+1 (+12) 345-6789")
  {
    LaterPlusRejected("+1 (+12) 345-6789", 4);
  }

  /** A '+' anywhere after the first character rules a phone number out. */
  lemma LaterPlusRejected(s: string, j: nat)
    requires 1 <= j < |s| && s[j] == '+'
    ensures !Matches(PhonePattern, s)
  {
    if Matches(PhonePattern, s) {
      PhonePatternPlusOnlyFirst(s);
    }
  }

  // ---------------------------------------------------------------------------
  // Height
  // ---------------------------------------------------------------------------

  /** `^\d*\.?\d{0,1}$`. */
  const HeightPattern: seq<Atom> := [Many(Digit), Optional(Exactly('.')), Optional(Digit)]

  /** `validateHeight` accepts a non-empty value that matches the pattern. */
  predicate HeightValid(value: string)
  {
    Matches(HeightPattern, value) && value != ""
  }

  predicate AllDigits(s: string)
  {
    forall i :: 0 <= i < |s| ==> IsDigit(s[i])
  }

  /** The language of the height pattern, read off directly: digits only, or
      digits, one '.', and at most one digit after it. */
  predicate HeightShape(s: string)
  {
    AllDigits(s) ||
    exists k | 0 <= k < |s| :: s[k] == '.' && AllDigits(s[..k]) && AllDigits(s[k + 1..]) && |s| <= k + 2
  }

  /** The tail of the height pattern after the digit run. */
  lemma HeightTail(t: string)
    ensures Matches(HeightPattern[1..], t) <==>
      t == [] || t == "." || (|t| == 1 && IsDigit(t[0])) || (|t| == 2 && t[0] == '.' && IsDigit(t[1]))
  {
    var p := HeightPattern[1..];
    assert p == [Optional(Exactly('.')), Optional(Digit)];
    assert p[1..] == [Optional(Digit)];
    OptionalDigitLast(t);
    if |t| > 0 {
      OptionalDigitLast(t[1..]);
      if t[0] == '.' && t[1..] == [] {
        assert t == ".";
      }
    }
  }

  lemma OptionalDigitLast(u: string)
    ensures Matches([Optional(Digit)], u) <==> u == [] || (|u| == 1 && IsDigit(u[0]))
  {
    assert [Optional(Digit)][1..] == [];
  }

  lemma {:induction false} HeightMatchesShape(s: string)
    requires Matches(HeightPattern, s)
    ensures HeightShape(s)
    decreases |s|
  {
    if Matches(HeightPattern[1..], s) {
      HeightTail(s);
      if |s| == 2 {
        assert s[..0] == [] && s[1..] == [s[1]];
      }
      if s == "." {
        assert s[..0] == [];
      }
    } else {
      HeightMatchesShape(s[1..]);
      if AllDigits(s[1..]) {
        assert AllDigits(s) by {
          forall i | 0 <= i < |s| ensures IsDigit(s[i]) {
            if i > 0 { assert s[i] == s[1..][i - 1]; }
          }
        }
      } else {
        var t := s[1..];
        var k :| 0 <= k < |t| && t[k] == '.' && AllDigits(t[..k]) && AllDigits(t[k + 1..]) && |t| <= k + 2;
        assert s[k + 1] == '.';
        assert s[k + 2..] == t[k + 1..];
        assert AllDigits(s[..k + 1]) by {
          forall i | 0 <= i < k + 1 ensures IsDigit(s[i]) {
            if i > 0 { assert s[i] == t[..k][i - 1]; }
          }
        }
      }
    }
  }

  lemma {:induction false} DigitsMatchHeight(s: string, tail: string)
    requires AllDigits(s)
    requires Matches(HeightPattern[1..], tail)
    ensures Matches(HeightPattern, s + tail)
    decreases |s|
  {
    if s != [] {
      DigitsMatchHeight(s[1..], tail);
      assert (s + tail)[1..] == s[1..] + tail;
    } else {
      assert s + tail == tail;
    }
  }

  lemma HeightShapeMatches(s: string)
    requires HeightShape(s)
    ensures Matches(HeightPattern, s)
  {
    if AllDigits(s) {
      HeightTail([]);
      DigitsMatchHeight(s, []);
      assert s + [] == s;
    } else {
      var k :| 0 <= k < |s| && s[k] == '.' && AllDigits(s[..k]) && AllDigits(s[k + 1..]) && |s| <= k + 2;
      HeightTail(s[k..]);
      DigitsMatchHeight(s[..k], s[k..]);
      assert s[..k] + s[k..] == s;
    }
  }

  /** The height pattern accepts exactly digit strings, optionally followed
      by one '.' and at most one digit; so "." and "12." are valid heights
      and "1.25" is not. */
  lemma HeightLanguage(s: string)
    ensures Matches(HeightPattern, s) <==> HeightShape(s)
    ensures HeightValid(s) <==> HeightShape(s) && s != ""
  {
    if Matches(HeightPattern, s) { HeightMatchesShape(s); }
    if HeightShape(s) { HeightShapeMatches(s); }
  }

  lemma HeightExamples()
    ensures HeightValid(".") && HeightValid("12.") && HeightValid("172.5")
    ensures !HeightValid("") && !HeightValid("1.25")
  {
    HeightLanguage(".");
    assert ".."[..0] == "";
    assert HeightShape(".") by { assert "."[..0] == "" && "."[1..] == ""; }
    assert HeightShape("12.") by { assert "12."[..2] == "12" && "12."[3..] == ""; }
    assert HeightShape("172.5") by { assert "172.5"[..3] == "172" && "172.5"[4..] == "5"; }
    HeightLanguage("12.");
    HeightLanguage("172.5");
    HeightLanguage("1.25");
    assert !AllDigits("1.25") by { assert !IsDigit("1.25"[1]); }
  }

  // ---------------------------------------------------------------------------
  // Email
  // ---------------------------------------------------------------------------

  /** `[a-zA-Z0-9._%+-]`. */
  predicate IsLocalChar(c: char)
  {
    ('a' <= c <= 'z') || ('A' <= c <= 'Z') || IsDigit(c) || c == '.' || c == '_' || c == '%' || c == '+' || c == '-'
  }

  /** `[a-zA-Z0-9.-]`. */
  predicate IsDomainChar(c: char)
  {
    ('a' <= c <= 'z') || ('A' <= c <= 'Z') || IsDigit(c) || c == '.' || c == '-'
  }

  const TopLevelDomains: set<string> := {"com", "org", "net", "edu", "gov", "mil", "co", "io", "info", "biz", "me"}

  /** `s` splits as local '@' domain '.' tld, with '@' at `at` and the final
      '.' at `dot`. */
  predicate EmailSplit(s: string, at: int, dot: int)
  {
    && 0 < at && at + 1 < dot < |s|
    && s[at] == '@' && s[dot] == '.'
    && (forall i :: 0 <= i < at ==> IsLocalChar(s[i]))
    && (forall i :: at < i < dot ==> IsDomainChar(s[i]))
    && s[dot + 1..] in TopLevelDomains
  }

  /** `^[a-zA-Z0-9._%+-]+@[a-zA-Z0-9.-]+\.(com|org|net|edu|gov|mil|co|io|info|biz|me)$`. */
  predicate EmailValid(s: string)
  {
    exists at, dot | 0 <= at < |s| && 0 <= dot < |s| :: EmailSplit(s, at, dot)
  }

  /** Any non-empty local part of the allowed characters, '@', a non-empty
      domain of the allowed characters, '.', and a listed suffix is valid. */
  lemma EmailAccepts(local: string, domain: string, tld: string)
    requires local != [] && forall i :: 0 <= i < |local| ==> IsLocalChar(local[i])
    requires domain != [] && forall i :: 0 <= i < |domain| ==> IsDomainChar(domain[i])
    requires tld in TopLevelDomains
    ensures EmailValid(local + "@" + domain + "." + tld)
  {
    var s := local + "@" + domain + "." + tld;
    var at, dot := |local|, |local| + 1 + |domain|;
    assert s[dot + 1..] == tld;
    forall i | at < i < dot ensures IsDomainChar(s[i]) {
      assert s[i] == domain[i - at - 1];
    }
    assert EmailSplit(s, at, dot);
  }

  /** A valid address has exactly one '@', ends in a listed suffix after a
      '.', and contains no whitespace. */
  lemma EmailShape(s: string)
    requires EmailValid(s)
    ensures exists at :: 0 < at < |s| && s[at] == '@' && forall j :: 0 <= j < |s| && j != at ==> s[j] != '@'
    ensures exists dot :: 0 < dot < |s| && s[dot] == '.' && s[dot + 1..] in TopLevelDomains
    ensures forall j :: 0 <= j < |s| ==> !IsSpace(s[j])
  {
    var at, dot :| 0 <= at < |s| && 0 <= dot < |s| && EmailSplit(s, at, dot);
    SplitShape(s, at, dot);
    assert 0 < at < |s| && s[at] == '@' && forall j :: 0 <= j < |s| && j != at ==> s[j] != '@';
    assert 0 < dot < |s| && s[dot] == '.' && s[dot + 1..] in TopLevelDomains;
  }

  /** The facts behind `EmailShape`, for one split. */
  lemma SplitShape(s: string, at: int, dot: int)
    requires EmailSplit(s, at, dot)
    ensures forall j :: 0 <= j < |s| && j != at ==> s[j] != '@'
    ensures forall j :: 0 <= j < |s| ==> !IsSpace(s[j])
  {
    var tld := s[dot + 1..];
    SuffixLetters(tld);
    forall j | dot < j < |s| ensures 'a' <= s[j] <= 'z' {
      assert s[j] == tld[j - dot - 1];
    }
  }

  /** Every listed suffix is lower-case ASCII letters. */
  lemma SuffixLetters(tld: string)
    requires tld in TopLevelDomains
    ensures forall i :: 0 <= i < |tld| ==> 'a' <= tld[i] <= 'z'
  {
  }
}

=== FILE: push_worker.dfy ===
/** The push handler of public/worker.js: every push event shows exactly one
    notification, built from the optional JSON payload with a default for
    each missing or falsy field, or a fixed error notification when reading
    the payload throws. */
module PushWorker {
  import opened Common

  /** What `event.data?.json()` did: no data, a parsed value, or a throw. */
  datatype PushData = NoData | Parsed(payload: Json) | Malformed

  /** The arguments of `showNotification(title, options)`. The error
      notification's options carry no icon. */
  datatype Notification = Notification(title: Json, body: Json, icon: Option<Json>)

  const DefaultTitle: Json := JStr("Default Title")
  const DefaultBody: Json := JStr("Default body text")
  const DefaultIcon: Json := JStr("/AppIcon.svg")
  const ErrorNotification: Notification :=
    Notification(JStr("Push Error"), JStr("Something went wrong handling the push notification."), None)

  /** The one notification a push event shows. */
  function HandlePush(data: PushData): Notification
  {
    match data
    case Malformed => ErrorNotification
    case NoData => FromPayload(JNull)
    case Parsed(payload) => FromPayload(payload)
  }

  function FromPayload(data: Json): Notification
  {
    Notification(
      Or(Prop(data, "title"), DefaultTitle),
      Or(Prop(data, "text"), DefaultBody),
      Some(Or(Prop(data, "icon"), DefaultIcon)))
  }

  /** Each field of a parsed payload is used when it is truthy and replaced by
      its default otherwise; the body comes from `text`. */
  lemma PayloadFields(payload: Json)
    ensures var n := HandlePush(Parsed(payload));
      && (Truthy(Prop(payload, "title")) ==> n.title == Prop(payload, "title"))
      && (!Truthy(Prop(payload, "title")) ==> n.title == JStr("Default Title"))
      && (Truthy(Prop(payload, "text")) ==> n.body == Prop(payload, "text"))
      && (!Truthy(Prop(payload, "text")) ==> n.body == JStr("Default body text"))
      && (Truthy(Prop(payload, "icon")) ==> n.icon == Some(Prop(payload, "icon")))
      && (!Truthy(Prop(payload, "icon")) ==> n.icon == Some(JStr("/AppIcon.svg")))
  {
  }

  /** The payload's `body` key is never read: changing it changes nothing. */
  lemma BodyKeyIgnored(fields: map<string, Json>, value: Json)
    ensures HandlePush(Parsed(JObj(fields["body" := value]))) == HandlePush(Parsed(JObj(fields)))
  {
    var updated := fields["body" := value];
    assert Prop(JObj(updated), "title") == Prop(JObj(fields), "title");
    assert Prop(JObj(updated), "text") == Prop(JObj(fields), "text");
    assert Prop(JObj(updated), "icon") == Prop(JObj(fields), "icon");
  }

  /** A push without data shows the all-defaults notification, as does a
      payload of JSON `null`; neither is the error notification. */
  lemma NoDataDefaults()
    ensures HandlePush(NoData) == Notification(JStr("Default Title"), JStr("Default body text"), Some(JStr("/AppIcon.svg")))
    ensures HandlePush(Parsed(JNull)) == HandlePush(NoData)
    ensures HandlePush(NoData) != ErrorNotification
  {
  }

  /** The error notification is shown exactly when reading the payload threw:
      it is the only notification without an icon. */
  lemma ErrorOnlyOnMalformed(data: PushData)
    ensures HandlePush(data).icon.None? <==> data == Malformed
    ensures data == Malformed ==> HandlePush(data).title == JStr("Push Error")
    ensures data == Malformed ==>
      HandlePush(data) == Notification(JStr("Push Error"), JStr("Something went wrong handling the push notification."), None)
  {
  }
}

=== FILE: route_guard.dfy ===
/** The route guard of src/ProtectedRoute.tsx: on mount it asks for the user
    profile once, navigates to onboarding when that fails with the message
    "404", lets every other outcome through, and always clears `loading`. */
module RouteGuard {
  import opened Common
  import opened ApiGateway

  const OnboardingPath: string := "/new-user"

  datatype Screen = LoadingPlaceholder | Children

  datatype Decision = Stay | NavigateTo(path: string)

  /** The catch block's decision for the outcome of the profile request. */
  function Decide(outcome: Result<Json>): Decision
  {
    if outcome.Failure? && outcome.message == "404" then NavigateTo(OnboardingPath) else Stay
  }

  /** The guard navigates, and only to onboarding, exactly on the error
      "404"; success and every other error leave the route alone (fail open). */
  lemma DecideRedirectsOnNotFoundOnly(outcome: Result<Json>)
    ensures Decide(outcome).NavigateTo? <==> outcome == Failure("404")
    ensures Decide(outcome).NavigateTo? ==> Decide(outcome).path == "/new-user"
    ensures outcome.Success? ==> Decide(outcome) == Stay
  {
  }

  /** Through the gateway: the guard redirects exactly when a token was found
      and the server answered GET_USER with status 404. A missing token, a
      lost response or any other status lets the children render. */
  lemma RedirectExactlyOnServerNotFound(session: Session, transport: AxiosConfig -> HttpOutcome,
                                        encode: string -> string)
    ensures var outcome := RequestOutcome(GetUser, Options(None, None, map[]), session, transport, encode);
      Decide(outcome).NavigateTo? <==>
        TokenOf(session).Some? &&
        transport(ConfigFor(GetUser, Options(None, None, map[]), TokenOf(session).value, encode)) == ErrorStatus(404)
  {
    NotFoundOutcome(GetUser, Options(None, None, map[]), session, transport, encode);
  }

  /** One mounted `ProtectedRoute`. The ghost logs record the routes it
      requested and the paths it navigated to. */
  class ProtectedRoute {
    var loading: bool
    ghost var requested: seq<Route>
    ghost var navigations: seq<string>

    /** What the component renders. */
    function View(): Screen
      reads this
    {
      if loading then LoadingPlaceholder else Children
    }

    /** The first render: loading, so the placeholder and not the children. */
    constructor ()
      ensures loading && View() == LoadingPlaceholder
      ensures requested == [] && navigations == []
    {
      loading := true;
      requested := [];
      navigations := [];
    }

    /** The mount effect `checkUser`. */
    method CheckUser(api: ApiService, session: Session, transport: AxiosConfig -> HttpOutcome,
                     encode: string -> string)
      modifies this, api
      ensures requested == old(requested) + [GetUser]
      // at most the one GET_USER call reaches the network
      ensures TokenOf(session).Some? ==>
        api.sent == old(api.sent) + [ConfigFor(GetUser, Options(None, None, map[]), TokenOf(session).value, encode)]
      ensures TokenOf(session).None? ==> api.sent == old(api.sent)
      // the registered observer stays, and sees the profile when it arrives
      ensures api.checkAchievements == old(api.checkAchievements)
      ensures var outcome := RequestOutcome(GetUser, Options(None, None, map[]), session, transport, encode);
        if outcome.Success? && api.checkAchievements.Some?
        then api.notified == old(api.notified) + [(api.checkAchievements.value, outcome.value)]
        else api.notified == old(api.notified)
      ensures var outcome := RequestOutcome(GetUser, Options(None, None, map[]), session, transport, encode);
        navigations == old(navigations) + (if Decide(outcome).NavigateTo? then [OnboardingPath] else [])
      ensures !loading && View() == Children
    {
      requested := requested + [GetUser];
      var outcome := api.Request(GetUser, Options(None, None, map[]), session, transport, encode);
      var decision := Decide(outcome);
      if decision.NavigateTo? {
        navigations := navigations + [decision.path];
      }
      // finally
      loading := false;
    }
  }
}

=== FILE: user_session.dfy ===
/** The user session record of src/GlobalContext.tsx: one user record held by
    the provider, replaced by a successful profile fetch and shallow-merged by
    `updateUser`, whose argument type has no `PK` and no `weight`. */
module UserSession {
  import opened Common

  /** `GetuserProps`. */
  datatype User = User(
    pk: string,
    userProfilePictureUrl: string,
    nickname: string,
    firstName: string,
    lastName: string,
    email: string,
    phone: string,
    birthdate: string,
    gender: bool,
    height: string,
    weight: string)

  /** `SetUserProps` as a spread source: a key is either present with a value
      or absent. There is no key for `PK` or `weight`. */
  datatype UserUpdate = UserUpdate(
    userProfilePictureUrl: Option<string>,
    nickname: Option<string>,
    firstName: Option<string>,
    lastName: Option<string>,
    email: Option<string>,
    phone: Option<string>,
    birthdate: Option<string>,
    gender: Option<bool>,
    height: Option<string>)

  /** The keys of the user record. */
  datatype Field =
    | PK | UserProfilePictureUrl | Nickname | FirstName | LastName
    | Email | Phone | Birthdate | Gender | Height | Weight

  datatype Value = Text(s: string) | Flag(b: bool)

  /** `user[f]`. */
  function Get(u: User, f: Field): Value
  {
    match f
    case PK => Text(u.pk)
    case UserProfilePictureUrl => Text(u.userProfilePictureUrl)
    case Nickname => Text(u.nickname)
    case FirstName => Text(u.firstName)
    case LastName => Text(u.lastName)
    case Email => Text(u.email)
    case Phone => Text(u.phone)
    case Birthdate => Text(u.birthdate)
    case Gender => Flag(u.gender)
    case Height => Text(u.height)
    case Weight => Text(u.weight)
  }

  function TextOf(o: Option<string>): Option<Value>
  {
    if o.Some? then Some(Text(o.value)) else None
  }

  /** `update[f]` when the update carries the key `f`. */
  function Supplied(u: UserUpdate, f: Field): Option<Value>
  {
    match f
    case PK => None
    case UserProfilePictureUrl => TextOf(u.userProfilePictureUrl)
    case Nickname => TextOf(u.nickname)
    case FirstName => TextOf(u.firstName)
    case LastName => TextOf(u.lastName)
    case Email => TextOf(u.email)
    case Phone => TextOf(u.phone)
    case Birthdate => TextOf(u.birthdate)
    case Gender => if u.gender.Some? then Some(Flag(u.gender.value)) else None
    case Height => TextOf(u.height)
    case Weight => None
  }

  /** The provider's initial record. */
  function InitialUser(): (u: User)
    ensures forall f :: f != Gender ==> Get(u, f) == Text("")
    ensures Get(u, Gender) == Flag(true)
  {
    User("", "", "", "", "", "", "", "", true, "", "")
  }

  function Pick<T>(o: Option<T>, d: T): T
  {
    if o.Some? then o.value else d
  }

  /** `{ ...prev, ...update }`. */
  function Merge(prev: User, u: UserUpdate): User
  {
    User(
      prev.pk,
      Pick(u.userProfilePictureUrl, prev.userProfilePictureUrl),
      Pick(u.nickname, prev.nickname),
      Pick(u.firstName, prev.firstName),
      Pick(u.lastName, prev.lastName),
      Pick(u.email, prev.email),
      Pick(u.phone, prev.phone),
      Pick(u.birthdate, prev.birthdate),
      Pick(u.gender, prev.gender),
      Pick(u.height, prev.height),
      prev.weight)
  }

  /** `{ ...a, ...b }` of two updates: the later one wins. */
  function Combine(a: UserUpdate, b: UserUpdate): UserUpdate
  {
    UserUpdate(
      if b.userProfilePictureUrl.Some? then b.userProfilePictureUrl else a.userProfilePictureUrl,
      if b.nickname.Some? then b.nickname else a.nickname,
      if b.firstName.Some? then b.firstName else a.firstName,
      if b.lastName.Some? then b.lastName else a.lastName,
      if b.email.Some? then b.email else a.email,
      if b.phone.Some? then b.phone else a.phone,
      if b.birthdate.Some? then b.birthdate else a.birthdate,
      if b.gender.Some? then b.gender else a.gender,
      if b.height.Some? then b.height else a.height)
  }

  /** The merge, key by key: a key the update carries takes the update's
      value, every other key keeps the old one. */
  lemma MergeByField(prev: User, u: UserUpdate, f: Field)
    ensures Supplied(u, f).Some? ==> Get(Merge(prev, u), f) == Supplied(u, f).value
    ensures Supplied(u, f).None? ==> Get(Merge(prev, u), f) == Get(prev, f)
  {
  }

  /** `PK` and `weight` survive every update. */
  lemma MergeKeepsIdentityAndWeight(prev: User, u: UserUpdate)
    ensures Merge(prev, u).pk == prev.pk
    ensures Merge(prev, u).weight == prev.weight
  {
    MergeByField(prev, u, PK);
    MergeByField(prev, u, Weight);
  }

  /** Applying the same update twice is applying it once. */
  lemma MergeIdempotent(prev: User, u: UserUpdate)
    ensures Merge(Merge(prev, u), u) == Merge(prev, u)
  {
  }

  /** Two updates in a row are one update in which the later one's keys win. */
  lemma MergeTwice(prev: User, a: UserUpdate, b: UserUpdate)
    ensures Merge(Merge(prev, a), b) == Merge(prev, Combine(a, b))
  {
  }

  /** The provider's state cell. */
  class UserProvider {
    var user: User

    constructor ()
      ensures user == InitialUser()
    {
      user := InitialUser();
    }

    /** `updateUser(update)`. */
    method UpdateUser(u: UserUpdate)
      modifies this
      ensures user == Merge(old(user), u)
    {
      user := Merge(user, u);
    }

    /** The mount effect `checkUser`, given what the GET_USER request yielded
        (its `data` read as a user record): success replaces the whole
        record, failure is only logged. */
    method CheckUser(fetched: Result<User>)
      modifies this
      ensures fetched.Success? ==> user == fetched.value
      ensures fetched.Failure? ==> user == old(user)
    {
      if fetched.Success? {
        user := fetched.value;
      }
    }
  }
}
